=== FILE: README.md ===
# Notion data collector, modelled in Dafny

The collector takes a Notion integration token and the address of a Notion page.
It works in three steps:

- It resolves the page address to a page id with a search call.
- It walks the page's block tree depth first and collects the ids of every child database.
  It descends into child pages as it meets them.
- It queries each database in turn. Each database's rows become flat records. Most properties write one key under their own name; a `date` property writes one key `name_k` per member of its value and none under its own name.
  A database that the service answers with 404 is passed over: the collector yields the answer's text instead.

The project models four parts of the system:

- `notion_api_config.dfy` (module `NotionApiConfig`): the operation table.
  Each of the three operations has an HTTP method, an endpoint template and a base payload that asks for 100 results per page.
- `notion_client.dfy` (module `NotionClient`): the transport client, as a class.
  The service is a scripted sequence of answers (`Client.server`).
  - `Client.Call` issues one request and classifies the status (200, 404 on a query, anything else).
    While the answer carries `next_cursor`, it calls itself one level deeper and writes the cursor into the payload dict it was given.
  - The payload dicts are class attributes of the configuration classes, so one `SharedPayloads` object is shared by every client.
  - Every request is logged in a ghost field `sent`.
- `notion_data_parser.dfy` (module `NotionDataParser`): the row parser, as methods with loops.
  They are proved against spec functions:
  - `Writes` gives the dict writes one property makes: one write for most types, one per member for `date`.
  - `Apply` folds writes into a record, with the last write winning.
- `notion_data_collector.dfy` (module `NotionDataCollector`): the extractor object, as a class.
  Each method is proved against a function of the answers the service gives:
  - `InitOf` for construction;
  - `WalkPage`/`WalkResults` for the tree walk;
  - `ExtractionOf` for one database;
  - `ExecuteFrom` for the whole run.

  A block tree (`Block`) and the answers a service holding it gives (`BlockScript`) show what the walk does when every page's children fit in one listing page. It lists the pages in preorder and collects the database ids in depth-first order. A page whose children need a second listing page stops the walk with a type error (`PagedListingStops`).

Two helper modules support them. `Python` models JSON values, dict subscripting, the exceptions that can escape, and `str.split`/`str.join`. `Wrappers` holds `Option` and `Result`.

The model follows the code where the code and its own comments disagree. The doc comment of `_call` promises to merge every page of a paginated answer into one response. The code does not:

- a call that follows at least one cursor returns `None`;
- each intermediate page is appended to the results as one nested list;
- the final page is dropped;
- the last cursor stays in the shared payload dict.

Likewise, the search call writes the page address into the shared search payload. These behaviours are modelled as written and stated as lemmas (`AppendedPages`, `MergedResponse`, `ThreePagesAsWritten`, `CursorPersists`).

The functions the methods are proved against follow the code branch by branch:

- `LastSegment` is `endpoint.split("/")[-1]` (utils/notion_client.py:58).
- `Consumed` is the number of answers one call reads (utils/notion_client.py:69-82).
- `ResponseAfter` is `_response` after a call (utils/notion_client.py:69-84).
- `PayloadAfter` is the payload dict after a call (utils/notion_client.py:76).
- `Writes` and `Converted` are the writes of one property (utils/notion_data_parser.py:29-83).
- `WalkPage` and `WalkResults` are `_extract_db_id` (notion_data_collector.py:46-63).
- `InitOf` is `_init_data` (notion_data_collector.py:28-33).
- `ExecuteFrom` is `execute` (notion_data_collector.py:89-100).

A failed database query with a status other than 404 raises an exception with a single argument. `_extract_db_to_dataframe` then reads `e.args[1]` and raises `IndexError`, and the model states this (`OtherQueryFailuresEscape`).

## Model

| member | source | states |
|---|---|---|
| NotionApiConfig.OperationTable | config/notion_api_config.py:6-42 | search is POST `/v1/search`; database query is POST `/v1/databases/{database_id}/query`; block children is GET `/v1/blocks/{block_id}/children` |
| NotionApiConfig.ConfiguredOperationsWellFormed | config/notion_api_config.py:6-42 | Every configured operation uses GET or POST, and its payload asks for `page_size` 100 |
| Python.Subscript | utils/notion_data_parser.py:26-27 | `d[key]` is the value of the dict's member named `key`; a missing key is a key error and anything but a dict a type error |
| Python.SplitJoin | utils/notion_data_parser.py:46-50 | Splitting a comma join at commas gives back the joined pieces when none holds a comma |
| NotionClient.ChainLength | utils/notion_client.py:69-82 | The number of leading answers that are 200 with a cursor; the answer after them, if any, is not |
| NotionClient.Failure | utils/notion_client.py:57-67 | No exception exactly for 200. `(text, "pass")` exactly for 404 on an endpoint whose last segment is `query`. Otherwise a single message starting with the failure prefix |
| NotionClient.CallResult | utils/notion_client.py:43-84 | A transport failure exactly when no answer stops the chain. The body is returned exactly when the first answer is a 200 without a cursor. A stopping answer that fails always raises its own failure (so a 500 raises the failure message), and a 200 reached after following cursors always returns `None` |
| NotionClient.Requests | utils/notion_client.py:76-82 | One request per continuing answer, plus one (also when the script runs out), the first with the payload as given |
| NotionClient.SharedPayloads.constructor | config/notion_api_config.py:6-42 | Three distinct dicts, one per operation, start as the configured payloads |
| NotionClient.Client.constructor | utils/notion_client.py:8-25 | The four headers, with the token after `Bearer` and the given API version; no response yet |
| NotionClient.Client.Call | utils/notion_client.py:27-84 | An undefined method raises the undefined-method message and changes nothing. Otherwise the requests issued, the answers read (every continuing answer plus the one that stops the chain), the payload (cursor written in), `_response` and the return value are the spec functions of the answers |
| NotionClient.Client.CallSearch | utils/notion_client.py:86-104 | The page address is written into the shared search payload as `query`. The result is `CallResult` of the answers on the search endpoint |
| NotionClient.Client.CallBlockChildren | utils/notion_client.py:106-122 | The shared block payload is sent with GET to `/v1/blocks/<id>/children`. The result is `CallResult` |
| NotionClient.Client.CallQueryDatabase | utils/notion_client.py:124-141 | The shared query payload is sent with POST to `/v1/databases/<id>/query`. The result is `CallResult` |
| NotionClient.ContinuedCall | utils/notion_client.py:71-84 | After a continuing answer, a call returns what the deeper call returns, except that success yields `None`; it reads one more answer |
| NotionClient.DepthOneReturns | utils/notion_client.py:69-84 | What a depth-1 call returns, with the `_response` it leaves, equals `CallResult` |
| NotionClient.LastSegmentAfterSlash | utils/notion_client.py:58 | `split("/")[-1]` is whatever follows the last slash |
| NotionClient.EndpointLastSegments | utils/notion_client.py:58 | The query, block-children and search endpoints end in `query`, `children` and `search` |
| NotionClient.NotFoundClassification | utils/notion_client.py:57-65 | A 404 is a skip `(text, "pass")` on a database query and a fatal failure on search and block listing |
| NotionClient.ConfiguredMethodsDefined | utils/notion_client.py:43-48 | Every configured operation passes the method check |
| NotionClient.RequestsFollowCursors | utils/notion_client.py:76-82 | Every request of one call has the same method and endpoint. Request i+1 carries the cursor of answer i as `start_cursor` |
| NotionClient.StaleCursorSent | utils/notion_client.py:76-96 | The first request of a later call through the same shared dict carries the last cursor an earlier call followed |
| NotionClient.CursorPersists | utils/notion_client.py:76-82 | The payload dict keeps the last cursor followed after the call; it is unchanged when no cursor was followed |
| NotionClient.AppendedPages | utils/notion_client.py:73-75 | Below depth 1, each continuing page adds one nested element, and the final page adds nothing |
| NotionClient.MergedResponse | utils/notion_client.py:69-84 | After a depth-1 call, `_response` is the first page's results plus one nested element per intermediate page; the final page is missing |
| NotionClient.ThreePagesAsWritten | utils/notion_client.py:69-84 | Three pages `[a]`, `[b]`, `[c]` give a `None` return and a `_response` holding `[a, [b]]` |
| NotionDataParser.ConversionOf | utils/notion_data_parser.py:38-83 | A tag outside the 19 handled type names falls to the branch that keeps the whole envelope, and only such a tag does |
| NotionDataParser.ParseDatabase | utils/notion_data_parser.py:13-87 | One record per row, in row order; each record is the row's `RecordOf` |
| NotionDataParser.ParseRow | utils/notion_data_parser.py:24-85 | A row's record is the writes of its properties, in dict order, applied to an empty dict |
| NotionDataParser.ParseProperty | utils/notion_data_parser.py:26-83 | One property does exactly its `Writes` (null check first, then its type's branch) into the record |
| NotionDataParser.ExpandDateFields | utils/notion_data_parser.py:78-80 | The date branch writes `name_k := v` for each member in order |
| NotionDataParser.CollectField | utils/notion_data_parser.py:46-62 | The list holds each element's `name` (or `id`), in element order |
| NotionDataParser.CollectRollupTexts | utils/notion_data_parser.py:64-70 | The list holds each rollup element's first `plain_text` under its own type, in element order |
| NotionDataParser.CollectFileUrls | utils/notion_data_parser.py:72-76 | The list holds each file element's `[type].url`, in element order |
| NotionDataParser.ApplyConcat | utils/notion_data_parser.py:24-85 | Doing two runs of writes is doing their concatenation |
| NotionDataParser.ApplyKeys | utils/notion_data_parser.py:24-85 | A record's keys are its old keys plus every key written |
| NotionDataParser.ApplyUntouched | utils/notion_data_parser.py:24-85 | A key no write touches keeps its presence and value |
| NotionDataParser.ApplyLastWrite | utils/notion_data_parser.py:24-85 | A key holds the value of its last write |
| NotionDataParser.PropertyInRecord | utils/notion_data_parser.py:24-85 | A key written by property j and by no later property holds property j's value in the row's record |
| NotionDataParser.NoneForEmptyPayload | utils/notion_data_parser.py:29-36 | A `None` or empty-list payload stores `None` under the property's name, whatever the type, `date` included |
| NotionDataParser.SingleValueConversions | utils/notion_data_parser.py:38-83 | Stores the payload's `name` for select/created_by/last_edited_by and the payload itself for the scalar types. Stores the first `plain_text` for title/rich_text, the member named by the payload's own `type` for formula, and the whole envelope for an unknown type |
| NotionDataParser.JoinedConversions | utils/notion_data_parser.py:46-76 | multi_select/people, relation, rollup and files store one comma-joined string. When no name, id, text or url holds a comma, splitting it at commas gives them back in element order |
| NotionDataParser.DateExpansion | utils/notion_data_parser.py:78-80 | A date adds exactly the keys `name_k`, each holding member k's value, and leaves the key `name` as it was |
| NotionDataParser.MultiSelectExample | utils/notion_data_parser.py:46-50 | Two options `A` and `B` give `"A,B"` |
| NotionDataParser.DateExample | utils/notion_data_parser.py:78-80 | A `Due` date gives `Due_start` and `Due_end` and no `Due` |
| NotionDataParser.EmptyTitleExample | utils/notion_data_parser.py:29-32 | An empty title gives `None` rather than an index error |
| NotionDataCollector.IdOf | notion_data_collector.py:57-61 | An id is read exactly when the block has a string `id` |
| NotionDataCollector.PageIdOf | notion_data_collector.py:35-44 | A search failure passes through. The id is returned exactly when the first result's `object` is `page` and it has a string id. Any other `object` raises the not-a-page message |
| NotionDataCollector.WalkPage | notion_data_collector.py:46-63 | The walk never reads more answers than the service gives, and its first request lists the page it was given |
| NotionDataCollector.WalkResults | notion_data_collector.py:57-61 | The loop over a page's children never reads more answers than the service gives |
| NotionDataCollector.ExtractionOf | notion_data_collector.py:65-87 | A skip message is returned exactly for an exception whose second argument is `"pass"`. A table is returned for a single-page answer with well-formed rows, and only then. It holds one record per row, each the row's `RecordOf` |
| NotionDataCollector.NotionData.constructor | notion_data_collector.py:10-25 | A fresh client with the default API version and the token; an empty database list; the url kept |
| NotionDataCollector.NotionData.Create | notion_data_collector.py:10-26 | Construction runs the search and the walk: the database list, the exception raised and the answers left are `InitOf`. The log holds the search requests, then one children request per page the walk from the found page lists. The page address stays in the shared search payload |
| NotionDataCollector.NotionData.InitData | notion_data_collector.py:28-33 | Appends the walk's database ids to the list. The requests appended to the log go to the search endpoint, then to the children endpoint of each page `InitOf` lists, which starts from the page the search found. The search payload is the search call's. When the page id cannot be found, the requests and `_response` are the search call's too |
| NotionDataCollector.NotionData.ExtractPageId | notion_data_collector.py:35-44 | The result is `PageIdOf` of the search outcome. The answers read, `_response`, the search payload and the request log are updated as the search call does |
| NotionDataCollector.NotionData.ExtractDbId | notion_data_collector.py:46-63 | The database list grows by exactly the walk's ids. The answers left and the returned list or exception are the walk's. The requests appended to the log go, in order, to the children endpoint of each page the walk lists |
| NotionDataCollector.NotionData.ExtractDbToDataFrame | notion_data_collector.py:65-87 | The result is `ExtractionOf` the query outcome on the given database's query endpoint. The answers read, `_response`, the query payload and the requests logged are the query call's for that database |
| NotionDataCollector.NotionData.Execute | notion_data_collector.py:89-100 | The outputs, the stopping exception and the answers left are `ExecuteFrom` of the database list. The requests appended to the log go to the query endpoint of the database at each position `ExecuteFrom` records |
| NotionDataCollector.ExecuteQueriesInOrder | notion_data_collector.py:98-100 | The query requests of a run go through the database list in order: the first asks for the first database, each later one for the same database or the next, and the last for the last database queried. Every database queried gets at least one request |
| NotionDataCollector.ExecuteOutputs | notion_data_collector.py:99-100 | At most one output per database id. No exception exactly when every id yields one |
| NotionDataCollector.NotFoundQuerySkipped | notion_data_collector.py:76-80 | A query answered 404 yields the answer's text and reads only that answer |
| NotionDataCollector.OtherQueryFailuresEscape | notion_data_collector.py:76-81 | Any other query failure, or a transport failure, escapes as `IndexError` |
| NotionDataCollector.PagedQueryFails | notion_data_collector.py:77-86 | A query whose answer points to a further page ends in `TypeError` when the last page is a 200, because the multi-page call returns `None` |
| NotionDataCollector.ExecuteContinuesAfterSkip | notion_data_collector.py:89-100 | After a skipped database, queried once, the run goes on with the next id and the next answer |
| NotionDataCollector.InitWalksFoundPage | notion_data_collector.py:28-33 | Construction's walk starts by listing the page id the search found; when no page id is found, no block is listed and no id collected |
| NotionDataCollector.NotAPageStopsInit | notion_data_collector.py:28-43 | A first search result that is not a page stops construction with the not-a-page message, before any block is listed |
| NotionDataCollector.WalkTree | notion_data_collector.py:46-63 | When every page's children fit in one listing page, the walk over a served block tree lists the tree's pages in preorder. It collects the tree's database ids in depth-first order and reads exactly those answers |
| NotionDataCollector.PagedListingStops | notion_data_collector.py:54-55 | A page whose children listing points to a further page stops the walk with `TypeError` and no ids when the last page is a 200, because the multi-page call returns `None` |
| NotionDataCollector.ListedPageIsTheOneAsked | notion_data_collector.py:54-61 | Walks from two different pages list different pages: each starts by listing the page it was given |
| NotionDataCollector.WalkForest | notion_data_collector.py:57-61 | The loop over a page's children from child i on collects the ids below children i.. in order and lists their pages in preorder |

## Left out

- The network, the `requests` library and logging are not modelled.
  - The service is a scripted sequence of answers, and an exhausted script stands for every transport failure (`ConnectionError`).
  - Timeouts and other transport errors are not told apart.
- The scripted service answers in order and ignores the whole request: headers, method, endpoint and payload.
  - A stale `start_cursor` or `query` left in a shared payload dict changes what the real service answers next. The model shows it only in the request log (`StaleCursorSent`), and `WalkTree` holds partly because the script ignores it.
  - A GET sends its payload as query parameters and a POST as a JSON body; the request log records the payload either way.
- The answer body is reduced to `results` and `next_cursor`. `Response.text` is kept as an opaque string.
- The pandas `DataFrame` built at the end of `parse_database` is not modelled: the model returns the list of records.
- JSON numbers are copied as their literal text; no arithmetic is done on them.
- NotionDataCollector.NotionData.Execute: the generator is run to the end or to its first exception. Lazy, partial consumption by the caller is not modelled.
- NotionDataCollector.IdOf: an `id` that is not a string is reported as `TypeError`. Python would carry any JSON value on into the list or the next call.
- NotionDataParser.ParseDatabase: rows must have the shapes the parser converts without raising.
  - Python raises `KeyError`, `TypeError` or `IndexError` on other rows.
  - Python also accepts an empty dict or empty string where a list of names, ids or files is expected, or as a rollup's `array`, joining nothing into `""`. The model rejects these degenerate shapes.
  - Python accepts a files element whose `type` is not a string, because the f-string converts it with `str()`. The model requires a string `type`.
  - The collector (`ExtractionOf`) reports any table outside the accepted shapes as one `ParseFailure`.
- NotionDataCollector.NotionData.ExtractDbId: of the request log it states only the endpoints, not the payloads. It leaves out the client's `_response` and the shared block payload after the walk. It states the database list, the answers read, the pages listed and the result.
- NotionDataCollector.NotionData.Create: of the request log it states only the endpoints. It returns the object together with the exception construction raised; a Python caller never gets the object when `__init__` raises.
- NotionDataCollector.NotionData.InitData: after a page id is found, it states the endpoints of the request log but not the payloads of the walk's requests, nor `_response` or the shared block payload, because `ExtractDbId` does not state them. The block payload keeps the walk's last cursor.
- NotionDataCollector.NotionData.Create, NotionDataCollector.NotionData.InitData: both require the three shared payload dicts to be distinct objects, as the class attributes of the three configuration classes are. The search payload is stated only under that condition.
- NotionDataCollector.NotionData.Execute: of the request log it states only the endpoints, not the payloads. It does not state the client's `_response` or the shared query payload after the run; the query payload keeps the last cursor followed.
- Python's recursion limit is not modelled. `_call` takes one frame per page and `_extract_db_id` one per level of nested pages, so very long cursor chains or very deep page trees raise `RecursionError` in Python.
- `logger_setting` and the `_logging.info` call are not modelled: they only write to the log.

=== FILE: notion_api_config.dfy ===
/**
 The operation table of the extractor: for each remote operation it uses, the HTTP
 method, the endpoint template and the base payload. The payload dicts are the
 starting contents of the shared mutable dicts the client writes into (see
 `NotionClient.SharedPayloads`).
 */
module NotionApiConfig {
  import opened Python

  /** An endpoint template: a fixed path, or a path with one `{param}` placeholder. */
  datatype Template =
    | Fixed(path: string)
    | WithParam(before: string, param: string, after: string)

  /** The template as written in the table. */
  function Text(t: Template): string {
    match t
    case Fixed(path) => path
    case WithParam(before, param, after) => before + "{" + param + "}" + after
  }

  /** `t.format(name=value)`; the caller names the template's own placeholder. */
  function Format(t: Template, name: string, value: string): string
    requires t.WithParam? ==> t.param == name
  {
    match t
    case Fixed(path) => path
    case WithParam(before, _, after) => before + value + after
  }

  datatype Operation = Operation(httpMethod: string, endpoint: Template, payload: map<string, Json>)

  const PageSize: Json := JNum(Number("100"))

  const Search: Operation :=
    Operation("POST", Fixed("/v1/search"), map["page_size" := PageSize])

  const DatabaseQuery: Operation :=
    Operation("POST", WithParam("/v1/databases/", "database_id", "/query"), map["page_size" := PageSize])

  const RetrieveBlockChildren: Operation :=
    Operation("GET", WithParam("/v1/blocks/", "block_id", "/children"), map["page_size" := PageSize])

  const Operations: seq<Operation> := [Search, DatabaseQuery, RetrieveBlockChildren]

  /** The three operations, their methods and templates as the table writes them. */
  lemma OperationTable()
    ensures Search.httpMethod == "POST" && Text(Search.endpoint) == "/v1/search"
    ensures DatabaseQuery.httpMethod == "POST" && Text(DatabaseQuery.endpoint) == "/v1/databases/{database_id}/query"
    ensures RetrieveBlockChildren.httpMethod == "GET" && Text(RetrieveBlockChildren.endpoint) == "/v1/blocks/{block_id}/children"
  {
  }

  /** Every configured operation uses GET or POST and asks for pages of 100 results. */
  lemma ConfiguredOperationsWellFormed()
    ensures forall op :: op in Operations ==> op.httpMethod in {"GET", "POST"}
    ensures forall op :: op in Operations ==> "page_size" in op.payload && op.payload["page_size"] == PageSize
  {
  }
}

=== FILE: notion_client.dfy ===
/**
 The transport client. `Client.Call` issues one request, classifies the status, and
 follows `next_cursor` by calling itself one level deeper, writing the cursor into
 the payload dict it was given. The network is a scripted sequence of answers
 (`Client.server`); an exhausted script stands for a transport failure.

 The code as written does not merge pages as its doc comment promises; the spec
 functions below follow the code, and the lemmas at the end state the consequences:
 a multi-page call returns `None`, intermediate pages are nested as one element
 each, the last page is dropped, and cursors and queries stay in the shared dicts.
 */
module NotionClient {
  import opened Wrappers
  import opened Python
  import Config = NotionApiConfig

  const ApiUrl: string := "https://api.notion.com"
  const DefaultNotionVersion: string := "2022-02-22"
  const UndefinedMethodMessage: string := "정의되지 않은 메서드"
  const FailedPrefix: string := "Notion API call failed: "
  const SkipMarker: string := "pass"

  /** One answer of the service: status, raw text, and the decoded `results` and `next_cursor`. */
  datatype Response = Response(status: int, text: string, results: seq<Json>, nextCursor: Option<string>)

  /** `response.json()` as far as the extractor reads it. */
  datatype Body = Body(results: seq<Json>, nextCursor: Option<string>)

  /** One HTTP request as issued: method, URL and a snapshot of the payload dict. */
  datatype Request = Request(httpMethod: string, endpoint: string, payload: map<string, Json>)

  function BodyOf(r: Response): Body {
    Body(r.results, r.nextCursor)
  }

  predicate IsDefinedMethod(httpMethod: string) {
    httpMethod == "GET" || httpMethod == "POST"
  }

  /** An accepted answer that points to a further page. */
  predicate Continues(r: Response) {
    r.status == 200 && r.nextCursor.Some?
  }

  /** The number of leading answers that point to a further page. */
  function ChainLength(s: seq<Response>): (k: nat)
    ensures k <= |s|
    ensures forall i :: 0 <= i < k ==> Continues(s[i])
    ensures k < |s| ==> !Continues(s[k])
  {
    if |s| == 0 || !Continues(s[0]) then 0 else 1 + ChainLength(s[1..])
  }

  /** The number of scripted answers one depth-1 call reads. */
  function Consumed(s: seq<Response>): (n: nat)
    ensures n <= |s|
  {
    if ChainLength(s) == |s| then |s| else ChainLength(s) + 1
  }

  /** `endpoint.split("/")[-1]`. */
  function LastSegment(endpoint: string): string {
    var parts := Split(endpoint, '/');
    parts[|parts| - 1]
  }

  /** The exception `_call` raises for an answer it does not accept; None for a 200. */
  function Failure(r: Response, endpoint: string): (e: Option<Exc>)
    ensures e.None? <==> r.status == 200
    ensures e == Some(Raised([r.text, SkipMarker])) <==> r.status == 404 && LastSegment(endpoint) == "query"
    ensures e.Some? && e != Some(Raised([r.text, SkipMarker])) ==> e == Some(Raised([FailedPrefix + r.text]))
  {
    if r.status == 404 then
      if LastSegment(endpoint) == "query" then Some(Raised([r.text, SkipMarker]))
      else Some(Raised([FailedPrefix + r.text]))
    else if r.status != 200 then Some(Raised([FailedPrefix + r.text]))
    else None
  }

  /** What a depth-1 call with a defined method returns, given the answers it will read. */
  function CallResult(s: seq<Response>, endpoint: string): (r: Result<Option<Body>, Exc>)
    ensures r == Err(ConnectionError) <==> ChainLength(s) == |s|
    ensures r.Ok? && r.value.Some? <==> |s| > 0 && s[0].status == 200 && s[0].nextCursor.None?
    ensures r.Ok? && r.value.Some? ==> r.value.value == BodyOf(s[0])
    ensures r.Err? && ChainLength(s) < |s| ==> Some(r.error) == Failure(s[ChainLength(s)], endpoint)
    ensures ChainLength(s) < |s| && Failure(s[ChainLength(s)], endpoint).Some? ==>
      r == Err(Failure(s[ChainLength(s)], endpoint).value)
    ensures 0 < ChainLength(s) < |s| && s[ChainLength(s)].status == 200 ==> r == Ok(None)
  {
    var k := ChainLength(s);
    if k == |s| then Err(ConnectionError)
    else
      match Failure(s[k], endpoint)
      case Some(e) => Err(e)
      case None => Ok(if k == 0 then Some(BodyOf(s[0])) else None)
  }

  /** What a call at any depth returns, `current` being `_response` when it returns. */
  function Returned(s: seq<Response>, endpoint: string, current: Option<Body>): Result<Option<Body>, Exc> {
    match CallResult(s, endpoint)
    case Err(e) => Err(e)
    case Ok(_) => Ok(if ChainLength(s) == 0 then current else None)
  }

  /** The requests a call issues: one per answer read, the cursor of each answer written into the next. */
  function Requests(httpMethod: string, endpoint: string, payload: map<string, Json>, s: seq<Response>): (rs: seq<Request>)
    ensures |rs| == ChainLength(s) + 1
    ensures rs[0] == Request(httpMethod, endpoint, payload)
    decreases |s|
  {
    [Request(httpMethod, endpoint, payload)] +
    (if |s| > 0 && Continues(s[0])
     then Requests(httpMethod, endpoint, payload["start_cursor" := JStr(s[0].nextCursor.value)], s[1..])
     else [])
  }

  /** The payload dict after a call: the last cursor followed stays in it. */
  function PayloadAfter(payload: map<string, Json>, s: seq<Response>): map<string, Json>
    decreases |s|
  {
    if |s| > 0 && Continues(s[0])
    then PayloadAfter(payload["start_cursor" := JStr(s[0].nextCursor.value)], s[1..])
    else payload
  }

  /** `self._response["results"].append(page)`: the page becomes one nested element. */
  function Append(b: Body, page: seq<Json>): Body {
    b.(results := b.results + [JArr(page)])
  }

  /** `_response` after a call at `depth` that started with `_response == current`. */
  function ResponseAfter(s: seq<Response>, depth: nat, current: Option<Body>): Option<Body>
    requires depth >= 1
    requires depth > 1 ==> current.Some?
    decreases |s|
  {
    if |s| == 0 || s[0].status != 200 then current
    else
      var stored := if depth == 1 then Some(BodyOf(s[0])) else current;
      if s[0].nextCursor.None? then stored
      else
        var appended := if depth != 1 then Some(Append(stored.value, s[0].results)) else stored;
        ResponseAfter(s[1..], depth + 1, appended)
  }

  /** Each page's `results`, nested as one element. */
  function Nested(pages: seq<Response>): seq<Json> {
    seq(|pages|, i requires 0 <= i < |pages| => JArr(pages[i].results))
  }

  /** A mutable payload dict. */
  class Payload {
    var entries: map<string, Json>

    constructor(entries: map<string, Json>)
      ensures this.entries == entries
    {
      this.entries := entries;
    }
  }

  /** The payload dicts of the operation table: class attributes, so one set is shared by every client. */
  class SharedPayloads {
    const search: Payload
    const query: Payload
    const block: Payload

    ghost predicate Distinct() {
      search != query && query != block && search != block
    }

    constructor()
      ensures Distinct()
      ensures fresh(search) && fresh(query) && fresh(block)
      ensures search.entries == Config.Search.payload
      ensures query.entries == Config.DatabaseQuery.payload
      ensures block.entries == Config.RetrieveBlockChildren.payload
    {
      search := new Payload(Config.Search.payload);
      query := new Payload(Config.DatabaseQuery.payload);
      block := new Payload(Config.RetrieveBlockChildren.payload);
    }
  }

  const SearchEndpoint: string := ApiUrl + Config.Text(Config.Search.endpoint)

  function QueryEndpoint(databaseId: string): string {
    ApiUrl + Config.Format(Config.DatabaseQuery.endpoint, "database_id", databaseId)
  }

  function BlockChildrenEndpoint(blockId: string): string {
    ApiUrl + Config.Format(Config.RetrieveBlockChildren.endpoint, "block_id", blockId)
  }

  class Client {
    const header: map<string, string>
    const payloads: SharedPayloads
    /** `_response`: the body being accumulated by the current call. */
    var response: Option<Body>
    /** The answers the service will give, in order. */
    var server: seq<Response>
    /** Every request issued so far. */
    ghost var sent: seq<Request>

    constructor(authToken: string, notionVersion: string, payloads: SharedPayloads, server: seq<Response>)
      ensures header == map[
        "Accept" := "application/json",
        "Notion-Version" := notionVersion,
        "Content-Type" := "application/json",
        "Authorization" := "Bearer " + authToken]
      ensures this.payloads == payloads && this.server == server
      ensures response == None && sent == []
    {
      header := map[
        "Accept" := "application/json",
        "Notion-Version" := notionVersion,
        "Content-Type" := "application/json",
        "Authorization" := "Bearer " + authToken];
      this.payloads := payloads;
      this.server := server;
      response := None;
      sent := [];
    }

    /** `_call`: one request, then the next page one level deeper while a cursor is returned. */
    method Call(httpMethod: string, endpoint: string, payload: Payload, depth: nat) returns (r: Result<Option<Body>, Exc>)
      requires depth >= 1
      requires depth > 1 ==> response.Some?
      modifies this, payload
      ensures !IsDefinedMethod(httpMethod) ==>
        && r == Err(Raised([UndefinedMethodMessage]))
        && server == old(server) && sent == old(sent)
        && response == old(response) && payload.entries == old(payload.entries)
      ensures IsDefinedMethod(httpMethod) ==>
        && sent == old(sent) + Requests(httpMethod, endpoint, old(payload.entries), old(server))
        && server == old(server)[Consumed(old(server))..]
        && payload.entries == PayloadAfter(old(payload.entries), old(server))
        && response == ResponseAfter(old(server), depth, old(response))
        && r == Returned(old(server), endpoint, response)
      decreases |server|
    {
      if !IsDefinedMethod(httpMethod) {
        return Err(Raised([UndefinedMethodMessage]));
      }
      ghost var s, p := server, payload.entries;
      sent := sent + [Request(httpMethod, endpoint, payload.entries)];
      if |server| == 0 {
        StoppedRequests(httpMethod, endpoint, p, s);
        return Err(ConnectionError);
      }
      var answer := server[0];
      server := server[1..];
      var failure := Failure(answer, endpoint);
      if failure.Some? {
        StoppedRequests(httpMethod, endpoint, p, s);
        return Err(failure.value);
      }
      if depth == 1 {
        response := Some(BodyOf(answer));
      }
      match answer.nextCursor {
        case Some(cursor) =>
          if depth != 1 {
            response := Some(Append(response.value, answer.results));
          }
          payload.entries := payload.entries["start_cursor" := JStr(cursor)];
          ghost var rest := server;
          var inner := Call(httpMethod, endpoint, payload, depth + 1);
          ContinuedCall(s, endpoint, response);
          ContinuedState(httpMethod, endpoint, p, s, depth, old(response));
          RequestsAfter(old(sent), Request(httpMethod, endpoint, p),
            Requests(httpMethod, endpoint, p["start_cursor" := JStr(cursor)], rest));
          assert s[Consumed(s)..] == rest[Consumed(rest)..];
          if inner.Err? {
            return Err(inner.error);
          }
          return Ok(None);
        case None =>
          StoppedRequests(httpMethod, endpoint, p, s);
          return Ok(response);
      }
    }

    /** `call_search`: the page address is written into the shared search payload as `query`. */
    method CallSearch(url: string) returns (r: Result<Option<Body>, Exc>)
      modifies this, payloads.search
      ensures r == CallResult(old(server), SearchEndpoint)
      ensures server == old(server)[Consumed(old(server))..]
      ensures response == ResponseAfter(old(server), 1, None)
      ensures payloads.search.entries == PayloadAfter(old(payloads.search.entries)["query" := JStr(url)], old(server))
      ensures sent == old(sent) + Requests(Config.Search.httpMethod, SearchEndpoint, old(payloads.search.entries)["query" := JStr(url)], old(server))
    {
      response := None;
      var payload := payloads.search;
      payload.entries := payload.entries["query" := JStr(url)];
      ConfiguredMethodsDefined();
      r := Call(Config.Search.httpMethod, SearchEndpoint, payload, 1);
      DepthOneReturns(old(server), SearchEndpoint, None);
    }

    /** `call_block_children`. */
    method CallBlockChildren(blockId: string) returns (r: Result<Option<Body>, Exc>)
      modifies this, payloads.block
      ensures r == CallResult(old(server), BlockChildrenEndpoint(blockId))
      ensures server == old(server)[Consumed(old(server))..]
      ensures response == ResponseAfter(old(server), 1, None)
      ensures payloads.block.entries == PayloadAfter(old(payloads.block.entries), old(server))
      ensures sent == old(sent) + Requests(Config.RetrieveBlockChildren.httpMethod, BlockChildrenEndpoint(blockId), old(payloads.block.entries), old(server))
    {
      response := None;
      var endpoint := BlockChildrenEndpoint(blockId);
      ConfiguredMethodsDefined();
      r := Call(Config.RetrieveBlockChildren.httpMethod, endpoint, payloads.block, 1);
      DepthOneReturns(old(server), endpoint, None);
    }

    /** `call_query_database`. */
    method CallQueryDatabase(databaseId: string) returns (r: Result<Option<Body>, Exc>)
      modifies this, payloads.query
      ensures r == CallResult(old(server), QueryEndpoint(databaseId))
      ensures server == old(server)[Consumed(old(server))..]
      ensures response == ResponseAfter(old(server), 1, None)
      ensures payloads.query.entries == PayloadAfter(old(payloads.query.entries), old(server))
      ensures sent == old(sent) + Requests(Config.DatabaseQuery.httpMethod, QueryEndpoint(databaseId), old(payloads.query.entries), old(server))
    {
      response := None;
      var endpoint := QueryEndpoint(databaseId);
      ConfiguredMethodsDefined();
      r := Call(Config.DatabaseQuery.httpMethod, endpoint, payloads.query, 1);
      DepthOneReturns(old(server), endpoint, None);
    }
  }

  /** After a continuing answer, a call returns what the deeper call returns, except that success yields `None`. */
  lemma ContinuedCall(s: seq<Response>, endpoint: string, current: Option<Body>)
    requires |s| > 0 && Continues(s[0])
    ensures Returned(s, endpoint, current) ==
      match Returned(s[1..], endpoint, current)
      case Err(e) => Err(e)
      case Ok(_) => Ok(None)
    ensures Consumed(s) == 1 + Consumed(s[1..])
  {
    assert ChainLength(s) == 1 + ChainLength(s[1..]);
  }

  /** The state after a call that reads a continuing answer is the state after the deeper call. */
  lemma ContinuedState(httpMethod: string, endpoint: string, p: map<string, Json>, s: seq<Response>, depth: nat, current: Option<Body>)
    requires |s| > 0 && Continues(s[0])
    requires depth >= 1 && (depth > 1 ==> current.Some?)
    ensures var p' := p["start_cursor" := JStr(s[0].nextCursor.value)];
      && Requests(httpMethod, endpoint, p, s) == [Request(httpMethod, endpoint, p)] + Requests(httpMethod, endpoint, p', s[1..])
      && PayloadAfter(p, s) == PayloadAfter(p', s[1..])
    ensures var stored := if depth == 1 then Some(BodyOf(s[0])) else current;
      ResponseAfter(s, depth, current) ==
        ResponseAfter(s[1..], depth + 1, if depth != 1 then Some(Append(stored.value, s[0].results)) else stored)
  {
  }

  /** A call whose first answer does not continue issues one request and leaves its payload as it was. */
  lemma StoppedRequests(httpMethod: string, endpoint: string, p: map<string, Json>, s: seq<Response>)
    requires |s| == 0 || !Continues(s[0])
    ensures Requests(httpMethod, endpoint, p, s) == [Request(httpMethod, endpoint, p)]
    ensures PayloadAfter(p, s) == p
  {
    assert [Request(httpMethod, endpoint, p)] + [] == [Request(httpMethod, endpoint, p)];
  }

  lemma RequestsAfter(sent: seq<Request>, first: Request, later: seq<Request>)
    ensures (sent + [first]) + later == sent + ([first] + later)
  {
  }

  /** At depth 1 the call returns exactly `CallResult`. */
  lemma DepthOneReturns(s: seq<Response>, endpoint: string, current: Option<Body>)
    ensures Returned(s, endpoint, ResponseAfter(s, 1, current)) == CallResult(s, endpoint)
  {
  }

  /** `endpoint.split("/")[-1]` is whatever follows the last slash. */
  lemma {:induction false} LastSegmentAfterSlash(p: string, w: string)
    requires '/' !in w
    ensures LastSegment(p + "/" + w) == w
  {
    assert p + "/" + w == p + ['/'] + w;
    SplitConcat(p, w, '/');
    SplitWithoutSeparator(w, '/');
  }

  /** The endpoints built from the operation table end in `query`, `children` and `search`. */
  lemma {:induction false} EndpointLastSegments(id: string)
    ensures LastSegment(QueryEndpoint(id)) == "query"
    ensures LastSegment(BlockChildrenEndpoint(id)) == "children"
    ensures LastSegment(SearchEndpoint) == "search"
  {
    assert QueryEndpoint(id) == (ApiUrl + "/v1/databases/" + id) + "/" + "query";
    LastSegmentAfterSlash(ApiUrl + "/v1/databases/" + id, "query");
    assert BlockChildrenEndpoint(id) == (ApiUrl + "/v1/blocks/" + id) + "/" + "children";
    LastSegmentAfterSlash(ApiUrl + "/v1/blocks/" + id, "children");
    assert SearchEndpoint == (ApiUrl + "/v1") + "/" + "search";
    LastSegmentAfterSlash(ApiUrl + "/v1", "search");
  }

  /** A 404 is recoverable on a database query and fatal on the other two operations. */
  lemma {:induction false} NotFoundClassification(r: Response, id: string)
    requires r.status == 404
    ensures Failure(r, QueryEndpoint(id)) == Some(Raised([r.text, SkipMarker]))
    ensures Failure(r, BlockChildrenEndpoint(id)) == Some(Raised([FailedPrefix + r.text]))
    ensures Failure(r, SearchEndpoint) == Some(Raised([FailedPrefix + r.text]))
  {
    EndpointLastSegments(id);
  }

  /** Every configured operation passes `_call`'s method check. */
  lemma ConfiguredMethodsDefined()
    ensures IsDefinedMethod(Config.Search.httpMethod)
    ensures IsDefinedMethod(Config.DatabaseQuery.httpMethod)
    ensures IsDefinedMethod(Config.RetrieveBlockChildren.httpMethod)
  {
  }

  /** Every request of one call goes to the same method and endpoint; each later one carries the previous cursor. */
  lemma {:induction false} RequestsFollowCursors(httpMethod: string, endpoint: string, p: map<string, Json>, s: seq<Response>, i: nat)
    requires i <= ChainLength(s)
    ensures Requests(httpMethod, endpoint, p, s)[i].httpMethod == httpMethod
    ensures Requests(httpMethod, endpoint, p, s)[i].endpoint == endpoint
    ensures i == 0 ==> Requests(httpMethod, endpoint, p, s)[i].payload == p
    ensures i > 0 ==> Requests(httpMethod, endpoint, p, s)[i].payload == p["start_cursor" := JStr(s[i - 1].nextCursor.value)]
    decreases i
  {
    if i > 0 {
      var p' := p["start_cursor" := JStr(s[0].nextCursor.value)];
      RequestsFollowCursors(httpMethod, endpoint, p', s[1..], i - 1);
      if i > 1 {
        assert p'["start_cursor" := JStr(s[i - 1].nextCursor.value)] == p["start_cursor" := JStr(s[i - 1].nextCursor.value)];
      }
    }
  }

  /** The shared payload dict keeps the last cursor followed, so the next call through it starts from there. */
  lemma {:induction false} CursorPersists(p: map<string, Json>, s: seq<Response>)
    ensures ChainLength(s) == 0 ==> PayloadAfter(p, s) == p
    ensures ChainLength(s) > 0 ==>
      PayloadAfter(p, s) == p["start_cursor" := JStr(s[ChainLength(s) - 1].nextCursor.value)]
    decreases |s|
  {
    if ChainLength(s) > 0 {
      var p' := p["start_cursor" := JStr(s[0].nextCursor.value)];
      CursorPersists(p', s[1..]);
      if ChainLength(s) > 1 {
        assert p'["start_cursor" := JStr(s[ChainLength(s) - 1].nextCursor.value)]
          == p["start_cursor" := JStr(s[ChainLength(s) - 1].nextCursor.value)];
      }
    }
  }

  /**
   Two calls through the same shared payload dict: the first request of the second call
   carries the last cursor the first call followed, whatever it asks for.
   */
  lemma StaleCursorSent(httpMethod: string, endpoint: string, p: map<string, Json>, s1: seq<Response>, s2: seq<Response>)
    requires ChainLength(s1) > 0
    ensures Requests(httpMethod, endpoint, PayloadAfter(p, s1), s2)[0].payload ==
      p["start_cursor" := JStr(s1[ChainLength(s1) - 1].nextCursor.value)]
  {
    CursorPersists(p, s1);
  }

  /** Below depth 1, each continuing page is appended as one nested element and the final page adds nothing. */
  lemma {:induction false} AppendedPages(s: seq<Response>, depth: nat, b: Body)
    requires depth > 1
    ensures ResponseAfter(s, depth, Some(b)) == Some(b.(results := b.results + Nested(s[..ChainLength(s)])))
    decreases |s|
  {
    var k := ChainLength(s);
    if |s| == 0 || !Continues(s[0]) {
      assert Nested(s[..k]) == [];
      assert b.results + [] == b.results;
    } else {
      assert ChainLength(s[1..]) == k - 1;
      AppendedPages(s[1..], depth + 1, Append(b, s[0].results));
      assert Nested(s[..k]) == [JArr(s[0].results)] + Nested(s[1..][..k - 1]);
      assert Append(b, s[0].results).results + Nested(s[1..][..k - 1])
        == b.results + Nested(s[..k]);
    }
  }

  /**
   The `_response` a depth-1 call leaves behind: the first page as received, then one
   nested element per intermediate page; the final page's results are not added.
   */
  lemma {:induction false} MergedResponse(s: seq<Response>, current: Option<Body>)
    requires |s| > 0 && s[0].status == 200
    ensures var k := ChainLength(s);
      ResponseAfter(s, 1, current) ==
        Some(Body(s[0].results + (if k <= 1 then [] else Nested(s[1..k])), s[0].nextCursor))
  {
    var k := ChainLength(s);
    if k > 0 {
      assert ChainLength(s[1..]) == k - 1;
      assert ResponseAfter(s, 1, current) == ResponseAfter(s[1..], 2, Some(BodyOf(s[0])));
      AppendedPages(s[1..], 2, BodyOf(s[0]));
      assert s[1..][..k - 1] == s[1..k];
      if k == 1 {
        assert Nested(s[1..k]) == [];
        assert s[0].results + Nested(s[1..k]) == s[0].results;
      }
    } else {
      assert s[0].results + [] == s[0].results;
    }
  }

  /**
   Three pages `[a]`, `[b]`, `[c]`: the call returns `None`, and `_response` holds `[a, [b]]`
   rather than `[a, b, c]`.
   */
  lemma ThreePagesAsWritten(a: Json, b: Json, c: Json, c1: string, c2: string, endpoint: string)
    ensures var s := [Response(200, "", [a], Some(c1)), Response(200, "", [b], Some(c2)), Response(200, "", [c], None)];
      && CallResult(s, endpoint) == Ok(None)
      && ResponseAfter(s, 1, None) == Some(Body([a, JArr([b])], Some(c1)))
  {
    var s := [Response(200, "", [a], Some(c1)), Response(200, "", [b], Some(c2)), Response(200, "", [c], None)];
    assert ChainLength(s[2..]) == 0;
    assert ChainLength(s[1..]) == 1;
    assert ChainLength(s) == 2;
    MergedResponse(s, None);
    assert s[1..2] == [s[1]];
    assert Nested(s[1..2]) == [JArr([b])];
    assert [a] + Nested(s[1..2]) == [a, JArr([b])];
  }
}

=== FILE: notion_data_collector.dfy ===
/**
 The extractor object: it resolves the page address to a page id with a search,
 walks the page's block tree depth first collecting the ids of child databases,
 and then queries each database in turn, parsing its rows or passing on the
 message of a database the service cannot query.

 Each method is proved against a function of the answers the service gives
 (`Client.server`): `InitOf` for construction, `WalkPage` for the tree walk,
 `ExtractionOf` for one database and `ExecuteFrom` for the whole run.
 */
module NotionDataCollector {
  import opened Wrappers
  import opened Python
  import opened NotionClient
  import Config = NotionApiConfig
  import Parser = NotionDataParser

  const NotPageMessage: string := "페이지 url이 아닙니다."

  /** `data["id"]`, which the model requires to be a string. */
  function IdOf(data: Json): (r: Result<string, Exc>)
    ensures r.Ok? <==> HasString(data, "id")
    ensures r.Ok? ==> r.value == StringAt(data, "id")
  {
    match Subscript(data, "id")
    case Err(e) => Err(e)
    case Ok(JStr(id)) => Ok(id)
    case Ok(_) => Err(TypeError)
  }

  /** `_extract_page_id` on the search call's outcome: the first result must be a page. */
  function PageIdOf(response: Result<Option<Body>, Exc>): (p: Result<string, Exc>)
    ensures response.Err? ==> p == Err(response.error)
    ensures p.Ok? <==>
      && response.Ok? && response.value.Some? && |response.value.value.results| > 0
      && Subscript(response.value.value.results[0], "object") == Ok(JStr("page"))
      && HasString(response.value.value.results[0], "id")
    ensures p.Ok? ==> p.value == StringAt(response.value.value.results[0], "id")
    ensures response.Ok? && response.value.Some? && |response.value.value.results| > 0
      && Subscript(response.value.value.results[0], "object").Ok?
      && Subscript(response.value.value.results[0], "object").value != JStr("page")
      ==> p == Err(Raised([NotPageMessage]))
  {
    match response
    case Err(e) => Err(e)
    case Ok(None) => Err(TypeError)
    case Ok(Some(body)) =>
      if |body.results| == 0 then Err(IndexError)
      else
        match Subscript(body.results[0], "object")
        case Err(e) => Err(e)
        case Ok(kind) =>
          if kind != JStr("page") then Err(Raised([NotPageMessage]))
          else IdOf(body.results[0])
  }

  /**
   The outcome of walking from one page: the error that escaped if any, the ids appended,
   the answers left, and the page whose children each request of the walk lists, in order.
   */
  datatype Walked = Walked(error: Option<Exc>, ids: seq<string>, rest: seq<Response>, listed: seq<string>)

  function Prepend(ids: seq<string>, listed: seq<string>, w: Walked): Walked {
    w.(ids := ids + w.ids, listed := listed + w.listed)
  }

  /** `x` once for each request of one call: one per continuing answer, plus one. */
  function PerRequest<T>(x: T, s: seq<Response>): seq<T> {
    seq(ChainLength(s) + 1, _ => x)
  }

  /** The endpoints of a run of requests, in order. */
  function Endpoints(rs: seq<Request>): seq<string> {
    seq(|rs|, i requires 0 <= i < |rs| => rs[i].endpoint)
  }

  /** The endpoints that list the children of each page in turn. */
  function ListingEndpoints(pages: seq<string>): seq<string> {
    seq(|pages|, i requires 0 <= i < |pages| => BlockChildrenEndpoint(pages[i]))
  }

  lemma EndpointsConcat(a: seq<Request>, b: seq<Request>)
    ensures Endpoints(a + b) == Endpoints(a) + Endpoints(b)
  {
  }

  lemma ListingConcat(e: seq<string>, a: seq<string>, b: seq<string>)
    ensures (e + ListingEndpoints(a)) + ListingEndpoints(b) == e + ListingEndpoints(a + b)
  {
    assert ListingEndpoints(a + b) == ListingEndpoints(a) + ListingEndpoints(b);
  }

  /** One call logs its endpoint once per request. */
  lemma Logged(sent: seq<Request>, httpMethod: string, endpoint: string, p: map<string, Json>, s: seq<Response>)
    ensures Endpoints(sent + Requests(httpMethod, endpoint, p, s)) == Endpoints(sent) + PerRequest(endpoint, s)
  {
    var rs := Requests(httpMethod, endpoint, p, s);
    forall i | 0 <= i < |rs|
      ensures rs[i].endpoint == endpoint
    {
      RequestsFollowCursors(httpMethod, endpoint, p, s, i);
    }
    EndpointsConcat(sent, rs);
  }

  /** One `call_block_children` logs one request to the page's children endpoint per page it lists. */
  lemma ListingLogged(sent: seq<Request>, httpMethod: string, pageId: string, p: map<string, Json>, s: seq<Response>)
    ensures Endpoints(sent + Requests(httpMethod, BlockChildrenEndpoint(pageId), p, s)) ==
      Endpoints(sent) + ListingEndpoints(PerRequest(pageId, s))
  {
    Logged(sent, httpMethod, BlockChildrenEndpoint(pageId), p, s);
    assert PerRequest(BlockChildrenEndpoint(pageId), s) == ListingEndpoints(PerRequest(pageId, s));
  }

  lemma AppendAssoc<T>(a: seq<T>, b: seq<T>, c: seq<T>)
    ensures (a + b) + c == a + (b + c)
  {
  }

  lemma PrependTwice(a: seq<string>, la: seq<string>, b: seq<string>, lb: seq<string>, w: Walked)
    ensures Prepend(a, la, Prepend(b, lb, w)) == Prepend(a + b, la + lb, w)
  {
    assert a + (b + w.ids) == (a + b) + w.ids;
    assert la + (lb + w.listed) == (la + lb) + w.listed;
  }

  /** `_extract_db_id(page_id)`, given the answers the service will give. */
  function WalkPage(pageId: string, s: seq<Response>): (w: Walked)
    ensures |w.rest| <= |s|
    ensures |w.listed| > 0 && w.listed[0] == pageId
    decreases |s|, 0
  {
    var rest := s[Consumed(s)..];
    match CallResult(s, BlockChildrenEndpoint(pageId))
    case Err(e) => Walked(Some(e), [], rest, PerRequest(pageId, s))
    case Ok(None) => Walked(Some(TypeError), [], rest, PerRequest(pageId, s))
    case Ok(Some(body)) => Prepend([], PerRequest(pageId, s), WalkResults(body.results, 0, rest))
  }

  /** The loop over a page's children from index `i` on. */
  function WalkResults(results: seq<Json>, i: nat, s: seq<Response>): (w: Walked)
    requires i <= |results|
    ensures |w.rest| <= |s|
    decreases |s|, 1, |results| - i
  {
    if i == |results| then Walked(None, [], s, [])
    else
      var data := results[i];
      match Subscript(data, "type")
      case Err(e) => Walked(Some(e), [], s, [])
      case Ok(kind) =>
        if kind == JStr("child_database") then
          match IdOf(data)
          case Err(e) => Walked(Some(e), [], s, [])
          case Ok(id) => Prepend([id], [], WalkResults(results, i + 1, s))
        else if kind == JStr("child_page") then
          match IdOf(data)
          case Err(e) => Walked(Some(e), [], s, [])
          case Ok(id) =>
            var inner := WalkPage(id, s);
            if inner.error.Some? then inner
            else Prepend(inner.ids, inner.listed, WalkResults(results, i + 1, inner.rest))
        else WalkResults(results, i + 1, s)
  }

  /** The steps of the loop over a page's children that stop the walk. */
  lemma WalkStops(results: seq<Json>, i: nat, s: seq<Response>)
    requires i < |results|
    ensures Subscript(results[i], "type").Err? ==>
      WalkResults(results, i, s) == Walked(Some(Subscript(results[i], "type").error), [], s, [])
    ensures Subscript(results[i], "type") in {Ok(JStr("child_database")), Ok(JStr("child_page"))} && IdOf(results[i]).Err? ==>
      WalkResults(results, i, s) == Walked(Some(IdOf(results[i]).error), [], s, [])
  {
  }

  /** The step that keeps a child database's id. */
  lemma WalkKeepsDatabase(results: seq<Json>, i: nat, s: seq<Response>, id: string)
    requires i < |results|
    requires Subscript(results[i], "type") == Ok(JStr("child_database")) && IdOf(results[i]) == Ok(id)
    ensures WalkResults(results, i, s) == Prepend([id], [], WalkResults(results, i + 1, s))
  {
  }

  /** The step over a child of any other type. */
  lemma WalkPassesOver(results: seq<Json>, i: nat, s: seq<Response>)
    requires i < |results|
    requires Subscript(results[i], "type").Ok?
    requires Subscript(results[i], "type").value != JStr("child_database")
    requires Subscript(results[i], "type").value != JStr("child_page")
    ensures WalkResults(results, i, s) == WalkResults(results, i + 1, s)
  {
  }

  /** The step that descends into a child page. */
  lemma WalkDescends(results: seq<Json>, i: nat, s: seq<Response>, id: string)
    requires i < |results|
    requires Subscript(results[i], "type") == Ok(JStr("child_page")) && IdOf(results[i]) == Ok(id)
    ensures WalkPage(id, s).error.Some? ==> WalkResults(results, i, s) == WalkPage(id, s)
    ensures WalkPage(id, s).error.None? ==>
      WalkResults(results, i, s) ==
        Prepend(WalkPage(id, s).ids, WalkPage(id, s).listed, WalkResults(results, i + 1, WalkPage(id, s).rest))
  {
  }

  /** `_init_data`: the search, then the walk from the page it found. */
  function InitOf(s: seq<Response>): Walked {
    var rest := s[Consumed(s)..];
    match PageIdOf(CallResult(s, SearchEndpoint))
    case Err(e) => Walked(Some(e), [], rest, [])
    case Ok(pageId) => WalkPage(pageId, rest)
  }

  /** What `_extract_db_to_dataframe` gives for one database: its records, or the message of a skipped query. */
  datatype Extracted = Table(records: seq<map<string, Json>>) | Skipped(message: string)

  /** `_extract_db_to_dataframe` on the query call's outcome. */
  function ExtractionOf(response: Result<Option<Body>, Exc>): (x: Result<Extracted, Exc>)
    ensures x.Ok? && x.value.Skipped? <==>
      response.Err? && response.error.Raised? && |response.error.args| >= 2 && response.error.args[1] == SkipMarker
    ensures x.Ok? && x.value.Table? ==>
      response.Ok? && response.value.Some? && Parser.WellFormedTable(response.value.value.results)
      && |x.value.records| == |response.value.value.results|
      && forall i :: 0 <= i < |x.value.records| ==>
        x.value.records[i] == Parser.RecordOf(response.value.value.results[i])
    ensures response.Ok? && response.value.Some? && Parser.WellFormedTable(response.value.value.results) ==>
      x == Ok(Table(Parser.ParseTable(response.value.value.results)))
  {
    match response
    case Err(e) =>
      if e.Raised? && |e.args| >= 2 then
        if e.args[1] == SkipMarker then Ok(Skipped(e.args[0])) else Err(e)
      else Err(IndexError)
    case Ok(None) => Err(TypeError)
    case Ok(Some(body)) =>
      if Parser.WellFormedTable(body.results) then Ok(Table(Parser.ParseTable(body.results)))
      else Err(ParseFailure)
  }

  /**
   The results `execute` yields before it stops, the exception it stops with if any, the
   answers left, and for each query request the position in the id list of the database it asks for.
   */
  datatype Run = Run(outputs: seq<Extracted>, raised: Option<Exc>, rest: seq<Response>, queried: seq<nat>)

  function Before(outputs: seq<Extracted>, queried: seq<nat>, run: Run): Run {
    run.(outputs := outputs + run.outputs, queried := queried + run.queried)
  }

  /** `execute` from position `n` of the id list: one extraction per database id, in list order, until one raises. */
  function ExecuteFrom(ids: seq<string>, n: nat, s: seq<Response>): (run: Run)
    requires n <= |ids|
    decreases |ids| - n
  {
    if n == |ids| then Run([], None, s, [])
    else
      var rest := s[Consumed(s)..];
      match ExtractionOf(CallResult(s, QueryEndpoint(ids[n])))
      case Err(e) => Run([], Some(e), rest, PerRequest<nat>(n, s))
      case Ok(x) => Before([x], PerRequest<nat>(n, s), ExecuteFrom(ids, n + 1, rest))
  }

  /** The endpoint of each query request, given the position of its database in the id list. */
  function QueryEndpoints(ids: seq<string>, queried: seq<nat>): seq<string> {
    seq(|queried|, j requires 0 <= j < |queried| => if queried[j] < |ids| then QueryEndpoint(ids[queried[j]]) else "")
  }


  class NotionData {
    const client: Client
    const url: string
    /** `_db_id_list`. */
    var dbIdList: seq<string>

    /** The fields `__init__` sets before it calls `_init_data`. */
    constructor(authToken: string, url: string, payloads: SharedPayloads, server: seq<Response>)
      ensures fresh(client)
      ensures client.payloads == payloads && client.server == server
      ensures client.response == None && client.sent == []
      ensures "Notion-Version" in client.header && client.header["Notion-Version"] == DefaultNotionVersion
      ensures "Authorization" in client.header && client.header["Authorization"] == "Bearer " + authToken
      ensures this.url == url && dbIdList == []
    {
      client := new Client(authToken, DefaultNotionVersion, payloads, server);
      this.url := url;
      dbIdList := [];
    }

    /** `NotionData(auth_token, url)`: the object, and the exception its construction raised if any. */
    static method Create(authToken: string, url: string, payloads: SharedPayloads, server: seq<Response>)
      returns (data: NotionData, raised: Option<Exc>)
      requires payloads.Distinct()
      modifies payloads.search, payloads.block
      ensures fresh(data) && fresh(data.client) && data.url == url && data.client.payloads == payloads
      ensures raised == InitOf(server).error
      ensures data.dbIdList == InitOf(server).ids
      ensures data.client.server == InitOf(server).rest
      ensures Endpoints(data.client.sent) == PerRequest(SearchEndpoint, server) + ListingEndpoints(InitOf(server).listed)
      ensures payloads.search.entries == PayloadAfter(old(payloads.search.entries)["query" := JStr(url)], server)
    {
      data := new NotionData(authToken, url, payloads, server);
      raised := data.InitData();
    }

    /** `_init_data`: resolve the page, then collect its databases. */
    method InitData() returns (raised: Option<Exc>)
      requires client.payloads.Distinct()
      modifies this, client, client.payloads.search, client.payloads.block
      ensures raised == InitOf(old(client.server)).error
      ensures dbIdList == old(dbIdList) + InitOf(old(client.server)).ids
      ensures client.server == InitOf(old(client.server)).rest
      ensures Endpoints(client.sent) == Endpoints(old(client.sent)) + PerRequest(SearchEndpoint, old(client.server))
        + ListingEndpoints(InitOf(old(client.server)).listed)
      ensures client.payloads.search.entries ==
        PayloadAfter(old(client.payloads.search.entries)["query" := JStr(url)], old(client.server))
      ensures PageIdOf(CallResult(old(client.server), SearchEndpoint)).Err? ==>
        && client.sent == old(client.sent) + Requests(Config.Search.httpMethod, SearchEndpoint,
          old(client.payloads.search.entries)["query" := JStr(url)], old(client.server))
        && client.response == ResponseAfter(old(client.server), 1, None)
    {
      ghost var s, p, sent := client.server, client.payloads.search.entries["query" := JStr(url)], client.sent;
      var pageId := ExtractPageId();
      Logged(sent, Config.Search.httpMethod, SearchEndpoint, p, s);
      if pageId.Err? {
        assert Endpoints(client.sent) + [] == Endpoints(client.sent);
        return Some(pageId.error);
      }
      var ids := ExtractDbId(pageId.value);
      raised := if ids.Err? then Some(ids.error) else None;
    }

    /** `_extract_page_id`: search for the page address and take the id of the first result. */
    method ExtractPageId() returns (r: Result<string, Exc>)
      modifies client, client.payloads.search
      ensures r == PageIdOf(CallResult(old(client.server), SearchEndpoint))
      ensures client.server == old(client.server)[Consumed(old(client.server))..]
      ensures client.response == ResponseAfter(old(client.server), 1, None)
      ensures client.payloads.search.entries ==
        PayloadAfter(old(client.payloads.search.entries)["query" := JStr(url)], old(client.server))
      ensures client.sent == old(client.sent) + Requests(Config.Search.httpMethod, SearchEndpoint,
        old(client.payloads.search.entries)["query" := JStr(url)], old(client.server))
    {
      var response := client.CallSearch(url);
      if response.Err? {
        return Err(response.error);
      }
      if response.value.None? {
        return Err(TypeError);
      }
      var results := response.value.value.results;
      if |results| == 0 {
        return Err(IndexError);
      }
      var first := results[0];
      var objectKind := Subscript(first, "object");
      if objectKind.Err? {
        return Err(objectKind.error);
      }
      if objectKind.value != JStr("page") {
        return Err(Raised([NotPageMessage]));
      }
      r := IdOf(first);
    }

    /** `_extract_db_id`: list the page's children, keep database ids, descend into child pages. */
    method ExtractDbId(pageId: string) returns (r: Result<seq<string>, Exc>)
      modifies this, client, client.payloads.block
      ensures dbIdList == old(dbIdList) + WalkPage(pageId, old(client.server)).ids
      ensures client.server == WalkPage(pageId, old(client.server)).rest
      ensures WalkPage(pageId, old(client.server)).error.None? ==> r == Ok(dbIdList)
      ensures WalkPage(pageId, old(client.server)).error.Some? ==>
        r == Err(WalkPage(pageId, old(client.server)).error.value)
      ensures Endpoints(client.sent) == Endpoints(old(client.sent)) + ListingEndpoints(WalkPage(pageId, old(client.server)).listed)
      decreases |client.server|
    {
      ghost var s, p, sent := client.server, client.payloads.block.entries, client.sent;
      var response := client.CallBlockChildren(pageId);
      ListingLogged(sent, Config.RetrieveBlockChildren.httpMethod, pageId, p, s);
      if response.Err? {
        return Err(response.error);
      }
      if response.value.None? {
        return Err(TypeError);
      }
      var results := response.value.value.results;
      ghost var acc: seq<string> := [];
      ghost var pages := PerRequest(pageId, s);
      for n := 0 to |results|
        invariant |client.server| < |s|
        invariant dbIdList == old(dbIdList) + acc
        invariant Endpoints(client.sent) == Endpoints(sent) + ListingEndpoints(pages)
        invariant WalkPage(pageId, s) == Prepend(acc, pages, WalkResults(results, n, client.server))
      {
        var data := results[n];
        WalkStops(results, n, client.server);
        var kind := Subscript(data, "type");
        if kind.Err? {
          assert acc + [] == acc && pages + [] == pages;
          return Err(kind.error);
        }
        if kind.value != JStr("child_database") && kind.value != JStr("child_page") {
          WalkPassesOver(results, n, client.server);
        }
        if kind.value == JStr("child_database") {
          var id := IdOf(data);
          if id.Err? {
            assert acc + [] == acc && pages + [] == pages;
            return Err(id.error);
          }
          WalkKeepsDatabase(results, n, client.server, id.value);
          AppendAssoc(old(dbIdList), acc, [id.value]);
          dbIdList := dbIdList + [id.value];
          PrependTwice(acc, pages, [id.value], [], WalkResults(results, n + 1, client.server));
          assert pages + [] == pages;
          acc := acc + [id.value];
        }
        if kind.value == JStr("child_page") {
          var id := IdOf(data);
          if id.Err? {
            assert acc + [] == acc && pages + [] == pages;
            return Err(id.error);
          }
          ghost var inner := WalkPage(id.value, client.server);
          WalkDescends(results, n, client.server, id.value);
          var walked := ExtractDbId(id.value);
          AppendAssoc(old(dbIdList), acc, inner.ids);
          ListingConcat(Endpoints(sent), pages, inner.listed);
          if walked.Err? {
            return Err(walked.error);
          }
          PrependTwice(acc, pages, inner.ids, inner.listed, WalkResults(results, n + 1, client.server));
          acc := acc + inner.ids;
          pages := pages + inner.listed;
        }
      }
      assert acc + [] == acc && pages + [] == pages;
      return Ok(dbIdList);
    }

    /** `_extract_db_to_dataframe`: query one database and parse its rows, or pass on a skip message. */
    method ExtractDbToDataFrame(databaseId: string) returns (r: Result<Extracted, Exc>)
      modifies client, client.payloads.query
      ensures r == ExtractionOf(CallResult(old(client.server), QueryEndpoint(databaseId)))
      ensures client.server == old(client.server)[Consumed(old(client.server))..]
      ensures client.response == ResponseAfter(old(client.server), 1, None)
      ensures client.payloads.query.entries == PayloadAfter(old(client.payloads.query.entries), old(client.server))
      ensures client.sent == old(client.sent) + Requests(Config.DatabaseQuery.httpMethod, QueryEndpoint(databaseId),
        old(client.payloads.query.entries), old(client.server))
    {
      var response := client.CallQueryDatabase(databaseId);
      if response.Err? {
        var e := response.error;
        if !e.Raised? || |e.args| < 2 {
          return Err(IndexError);
        }
        if e.args[1] == SkipMarker {
          return Ok(Skipped(e.args[0]));
        }
        return Err(e);
      }
      if response.value.None? {
        return Err(TypeError);
      }
      var rows := response.value.value.results;
      if !Parser.WellFormedTable(rows) {
        return Err(ParseFailure);
      }
      var records := Parser.ParseDatabase(rows);
      return Ok(Table(records));
    }

    /** `execute`, run to the end: what it yields for each database id in turn, and the exception that stopped it. */
    method Execute() returns (outputs: seq<Extracted>, raised: Option<Exc>)
      modifies client, client.payloads.query
      ensures outputs == ExecuteFrom(dbIdList, 0, old(client.server)).outputs
      ensures raised == ExecuteFrom(dbIdList, 0, old(client.server)).raised
      ensures client.server == ExecuteFrom(dbIdList, 0, old(client.server)).rest
      ensures Endpoints(client.sent) ==
        Endpoints(old(client.sent)) + QueryEndpoints(dbIdList, ExecuteFrom(dbIdList, 0, old(client.server)).queried)
    {
      outputs := [];
      var ids := dbIdList;
      ghost var queried: seq<nat> := [];
      ghost var run := ExecuteFrom(ids, 0, client.server);
      ghost var before, log: seq<Request> := client.sent, [];
      for n := 0 to |ids|
        invariant run == Before(outputs, queried, ExecuteFrom(ids, n, client.server))
        invariant client.sent == before + log
        invariant Endpoints(log) == QueryEndpoints(ids, queried)
      {
        ghost var s, p := client.server, client.payloads.query.entries;
        var extracted := ExtractDbToDataFrame(ids[n]);
        QueryLogged(log, ids, queried, n, p, s);
        AppendAssoc(before, log, Requests(Config.DatabaseQuery.httpMethod, QueryEndpoint(ids[n]), p, s));
        log := log + Requests(Config.DatabaseQuery.httpMethod, QueryEndpoint(ids[n]), p, s);
        if extracted.Err? {
          ExecuteStops(ids, n, s, outputs, queried, run);
          EndpointsConcat(before, log);
          return outputs, Some(extracted.error);
        }
        ExecuteGoesOn(ids, n, s, client.server, extracted.value, outputs, queried, run);
        outputs := outputs + [extracted.value];
        queried := queried + PerRequest<nat>(n, s);
      }
      assert outputs + [] == outputs && queried + [] == queried;
      EndpointsConcat(before, log);
      raised := None;
    }
  }

  /** `execute` stops at position `n` when the extraction there raises. */
  lemma ExecuteStops(ids: seq<string>, n: nat, s: seq<Response>, outputs: seq<Extracted>, queried: seq<nat>, run: Run)
    requires n < |ids|
    requires run == Before(outputs, queried, ExecuteFrom(ids, n, s))
    requires ExtractionOf(CallResult(s, QueryEndpoint(ids[n]))).Err?
    ensures run == Run(outputs, Some(ExtractionOf(CallResult(s, QueryEndpoint(ids[n]))).error),
      s[Consumed(s)..], queried + PerRequest<nat>(n, s))
  {
    assert outputs + [] == outputs;
  }

  /** `execute` goes on past position `n` when the extraction there yields a value. */
  lemma ExecuteGoesOn(ids: seq<string>, n: nat, s: seq<Response>, rest: seq<Response>, x: Extracted,
                      outputs: seq<Extracted>, queried: seq<nat>, run: Run)
    requires n < |ids|
    requires run == Before(outputs, queried, ExecuteFrom(ids, n, s))
    requires ExtractionOf(CallResult(s, QueryEndpoint(ids[n]))) == Ok(x)
    requires rest == s[Consumed(s)..]
    ensures run == Before(outputs + [x], queried + PerRequest<nat>(n, s), ExecuteFrom(ids, n + 1, rest))
  {
    var inner := ExecuteFrom(ids, n + 1, rest);
    assert outputs + ([x] + inner.outputs) == (outputs + [x]) + inner.outputs;
    assert queried + (PerRequest<nat>(n, s) + inner.queried) == (queried + PerRequest<nat>(n, s)) + inner.queried;
  }

  /** One `call_query_database` for the database at position `n` logs its query endpoint once per request. */
  lemma QueryLogged(log: seq<Request>, ids: seq<string>, queried: seq<nat>, n: nat, p: map<string, Json>, s: seq<Response>)
    requires n < |ids|
    requires Endpoints(log) == QueryEndpoints(ids, queried)
    ensures Endpoints(log + Requests(Config.DatabaseQuery.httpMethod, QueryEndpoint(ids[n]), p, s)) ==
      QueryEndpoints(ids, queried + PerRequest<nat>(n, s))
  {
    Logged(log, Config.DatabaseQuery.httpMethod, QueryEndpoint(ids[n]), p, s);
    assert PerRequest(QueryEndpoint(ids[n]), s) == QueryEndpoints(ids, PerRequest<nat>(n, s));
    assert QueryEndpoints(ids, queried + PerRequest<nat>(n, s)) == QueryEndpoints(ids, queried) + QueryEndpoints(ids, PerRequest<nat>(n, s));
  }

  // ---------------------------------------------------------------------------
  // Properties of the run

  /** `execute` yields one result per database id unless an exception stops it early. */
  lemma {:induction false} ExecuteOutputs(ids: seq<string>, n: nat, s: seq<Response>)
    requires n <= |ids|
    ensures |ExecuteFrom(ids, n, s).outputs| <= |ids| - n
    ensures ExecuteFrom(ids, n, s).raised.None? <==> |ExecuteFrom(ids, n, s).outputs| == |ids| - n
    decreases |ids| - n
  {
    if n < |ids| {
      ExecuteOutputs(ids, n + 1, s[Consumed(s)..]);
    }
  }

  /** The number of databases a run queries: those it yields for, and the one that raised. */
  function Tried(run: Run): nat {
    |run.outputs| + (if run.raised.Some? then 1 else 0)
  }

  /**
   The query requests of a run go through the id list in order from position `n`: each
   request asks for the same database as the one before or for the next one, every database
   queried gets at least one request, and the last asks for the last database queried.
   */
  lemma {:induction false} ExecuteQueriesInOrder(ids: seq<string>, n: nat, s: seq<Response>)
    requires n <= |ids|
    ensures var q := ExecuteFrom(ids, n, s).queried;
      && (|q| == 0 <==> n == |ids|)
      && (|q| > 0 ==> q[0] == n && q[|q| - 1] == n + Tried(ExecuteFrom(ids, n, s)) - 1)
      && forall j :: 0 <= j < |q| - 1 ==> q[j + 1] == q[j] || q[j + 1] == q[j] + 1
    decreases |ids| - n
  {
    if n < |ids| {
      var rest := s[Consumed(s)..];
      var first := PerRequest<nat>(n, s);
      if ExtractionOf(CallResult(s, QueryEndpoint(ids[n]))).Ok? {
        var inner := ExecuteFrom(ids, n + 1, rest);
        ExecuteQueriesInOrder(ids, n + 1, rest);
        var q := first + inner.queried;
        assert ExecuteFrom(ids, n, s).queried == q;
        assert Tried(ExecuteFrom(ids, n, s)) == 1 + Tried(inner);
        forall j | 0 <= j < |q| - 1
          ensures q[j + 1] == q[j] || q[j + 1] == q[j] + 1
        {
          if j + 1 < |first| {
          } else if j + 1 == |first| {
            assert q[j] == n && q[j + 1] == inner.queried[0];
          } else {
            assert q[j] == inner.queried[j - |first|] && q[j + 1] == inner.queried[j + 1 - |first|];
          }
        }
        if |inner.queried| == 0 {
          assert q == first;
        } else {
          assert q[|q| - 1] == inner.queried[|inner.queried| - 1];
        }
      }
    }
  }

  /** A query answered 404 yields the answer's text and reads only that answer. */
  lemma {:induction false} NotFoundQuerySkipped(s: seq<Response>, id: string)
    requires |s| > 0 && s[0].status == 404
    ensures ExtractionOf(CallResult(s, QueryEndpoint(id))) == Ok(Skipped(s[0].text))
    ensures Consumed(s) == 1
  {
    NotFoundClassification(s[0], id);
  }

  /**
   Every other failed query escapes from `_extract_db_to_dataframe` as an index error:
   its exception carries one argument, and the code reads the second.
   */
  lemma {:induction false} OtherQueryFailuresEscape(s: seq<Response>, id: string)
    requires CallResult(s, QueryEndpoint(id)).Err?
    requires ChainLength(s) == |s| || s[ChainLength(s)].status != 404
    ensures ExtractionOf(CallResult(s, QueryEndpoint(id))) == Err(IndexError)
  {
    EndpointLastSegments(id);
  }

  /**
   A query whose first answer points to a further page (more rows than one page holds)
   fails with a type error: the multi-page call returns `None`, which the code subscripts.
   */
  lemma PagedQueryFails(s: seq<Response>, id: string)
    requires 0 < ChainLength(s) < |s| && s[ChainLength(s)].status == 200
    ensures ExtractionOf(CallResult(s, QueryEndpoint(id))) == Err(TypeError)
  {
  }

  /** After a skipped database, `execute` goes on with the next id and the next answer. */
  lemma {:induction false} ExecuteContinuesAfterSkip(ids: seq<string>, n: nat, s: seq<Response>)
    requires |s| > 0 && s[0].status == 404
    requires n < |ids|
    ensures ExecuteFrom(ids, n, s) == Before([Skipped(s[0].text)], [n], ExecuteFrom(ids, n + 1, s[1..]))
  {
    NotFoundQuerySkipped(s, ids[n]);
    assert PerRequest<nat>(n, s) == [n];
  }

  /** Construction walks from the page the search found, and lists no block when the search finds none. */
  lemma InitWalksFoundPage(s: seq<Response>)
    ensures PageIdOf(CallResult(s, SearchEndpoint)).Ok? ==>
      |InitOf(s).listed| > 0 && InitOf(s).listed[0] == PageIdOf(CallResult(s, SearchEndpoint)).value
    ensures PageIdOf(CallResult(s, SearchEndpoint)).Err? ==> InitOf(s).listed == [] && InitOf(s).ids == []
  {
  }

  /** A first search result that is not a page stops construction before any block is listed. */
  lemma {:induction false} NotAPageStopsInit(s: seq<Response>, first: Json, others: seq<Json>, kind: Json)
    requires |s| > 0 && s[0].status == 200 && s[0].nextCursor.None?
    requires s[0].results == [first] + others
    requires Subscript(first, "object") == Ok(kind) && kind != JStr("page")
    ensures InitOf(s) == Walked(Some(Raised([NotPageMessage])), [], s[1..], [])
  {
  }

  /**
   A page whose children do not fit in one listing (the answer points to a further page)
   stops the walk with a type error: the multi-page call returns `None`, which the code
   subscripts. The page is listed once per answer read.
   */
  lemma PagedListingStops(pageId: string, s: seq<Response>)
    requires 0 < ChainLength(s) < |s| && s[ChainLength(s)].status == 200
    ensures WalkPage(pageId, s) == Walked(Some(TypeError), [], s[ChainLength(s) + 1..], PerRequest(pageId, s))
  {
  }

  /** The walk from a page lists that page first, so walks from two different pages differ. */
  lemma ListedPageIsTheOneAsked(a: string, b: string, s: seq<Response>)
    requires a != b
    ensures WalkPage(a, s).listed != WalkPage(b, s).listed
  {
  }

  // ---------------------------------------------------------------------------
  // The walk over a block tree

  /** A block as the children listing reports it; `kind` is its `type`. */
  datatype Block = Block(id: string, kind: string, children: seq<Block>)

  function BlockJson(b: Block): Json {
    JObj([("object", JStr("block")), ("id", JStr(b.id)), ("type", JStr(b.kind))])
  }

  function ChildrenJson(b: Block): seq<Json> {
    seq(|b.children|, i requires 0 <= i < |b.children| => BlockJson(b.children[i]))
  }

  /** The answers a service holding the tree gives to the walk from `b`: one single-page listing per page visited. */
  function BlockScript(b: Block): seq<Response>
    decreases b, 1
  {
    [Response(200, "", ChildrenJson(b), None)] + ForestScript(b, 0)
  }

  function ForestScript(b: Block, i: nat): seq<Response>
    requires i <= |b.children|
    decreases b, 0, |b.children| - i
  {
    if i == |b.children| then []
    else (if b.children[i].kind == "child_page" then BlockScript(b.children[i]) else []) + ForestScript(b, i + 1)
  }

  /** The database ids below `b` in depth-first order, each child page explored where it appears. */
  function DfsIds(b: Block): seq<string>
    decreases b, 1
  {
    ForestIds(b, 0)
  }

  function ForestIds(b: Block, i: nat): seq<string>
    requires i <= |b.children|
    decreases b, 0, |b.children| - i
  {
    if i == |b.children| then []
    else
      var c := b.children[i];
      (if c.kind == "child_database" then [c.id] else if c.kind == "child_page" then DfsIds(c) else [])
      + ForestIds(b, i + 1)
  }

  /** The pages whose children the walk from `b` lists: `b`, then each child page's own, in preorder. */
  function Pages(b: Block): seq<string>
    decreases b, 1
  {
    [b.id] + ForestPages(b, 0)
  }

  function ForestPages(b: Block, i: nat): seq<string>
    requires i <= |b.children|
    decreases b, 0, |b.children| - i
  {
    if i == |b.children| then []
    else (if b.children[i].kind == "child_page" then Pages(b.children[i]) else []) + ForestPages(b, i + 1)
  }

  lemma BlockFields(b: Block)
    ensures Subscript(BlockJson(b), "type") == Ok(JStr(b.kind))
    ensures IdOf(BlockJson(b)) == Ok(b.id)
  {
    var f := BlockJson(b).fields;
    assert f[1..] == [("id", JStr(b.id)), ("type", JStr(b.kind))];
    assert f[1..][1..] == [("type", JStr(b.kind))];
    assert Lookup(f[1..][1..], "type") == Some(JStr(b.kind));
    assert Lookup(f[1..], "type") == Some(JStr(b.kind));
    assert Lookup(f[1..], "id") == Some(JStr(b.id));
  }

  /**
   Walking a served tree succeeds, appends the database ids in depth-first order,
   lists the pages in preorder, and reads exactly one answer per page visited.
   */
  lemma {:induction false} WalkTree(b: Block, more: seq<Response>)
    ensures WalkPage(b.id, BlockScript(b) + more) == Walked(None, DfsIds(b), more, Pages(b))
    decreases b, 1
  {
    var s := BlockScript(b) + more;
    assert s[0] == Response(200, "", ChildrenJson(b), None);
    assert ChainLength(s) == 0;
    assert s[Consumed(s)..] == ForestScript(b, 0) + more;
    assert PerRequest(b.id, s) == [b.id];
    WalkForest(b, 0, more);
    assert [] + DfsIds(b) == DfsIds(b);
  }

  lemma {:induction false} WalkForest(b: Block, i: nat, more: seq<Response>)
    requires i <= |b.children|
    ensures WalkResults(ChildrenJson(b), i, ForestScript(b, i) + more) == Walked(None, ForestIds(b, i), more, ForestPages(b, i))
    decreases b, 0, |b.children| - i, 1
  {
    if i < |b.children| {
      if b.children[i].kind == "child_page" {
        WalkChildPage(b, i, more);
      } else {
        WalkOtherChild(b, i, more);
      }
    } else {
      assert ForestScript(b, i) + more == more;
    }
  }

  /** The answers from child `i` on: the child's own walk if it is a page, then the rest. */
  lemma ForestScriptAt(b: Block, i: nat, more: seq<Response>)
    requires i < |b.children|
    ensures ForestScript(b, i) + more ==
      (if b.children[i].kind == "child_page" then BlockScript(b.children[i]) else []) + (ForestScript(b, i + 1) + more)
  {
  }

  lemma {:induction false} WalkChildPage(b: Block, i: nat, more: seq<Response>)
    requires i < |b.children| && b.children[i].kind == "child_page"
    ensures WalkResults(ChildrenJson(b), i, ForestScript(b, i) + more) == Walked(None, ForestIds(b, i), more, ForestPages(b, i))
    decreases b, 0, |b.children| - i, 0
  {
    WalkForest(b, i + 1, more);
    var c := b.children[i];
    var tail := ForestScript(b, i + 1) + more;
    ForestScriptAt(b, i, more);
    BlockFields(c);
    assert ChildrenJson(b)[i] == BlockJson(c);
    WalkDescends(ChildrenJson(b), i, BlockScript(c) + tail, c.id);
    WalkTree(c, tail);
  }

  lemma {:induction false} WalkOtherChild(b: Block, i: nat, more: seq<Response>)
    requires i < |b.children| && b.children[i].kind != "child_page"
    ensures WalkResults(ChildrenJson(b), i, ForestScript(b, i) + more) == Walked(None, ForestIds(b, i), more, ForestPages(b, i))
    decreases b, 0, |b.children| - i, 0
  {
    WalkForest(b, i + 1, more);
    var c := b.children[i];
    var tail := ForestScript(b, i + 1) + more;
    ForestScriptAt(b, i, more);
    assert ForestScript(b, i) + more == [] + tail == tail;
    BlockFields(c);
    assert ChildrenJson(b)[i] == BlockJson(c);
    if c.kind == "child_database" {
      WalkKeepsDatabase(ChildrenJson(b), i, tail, c.id);
      assert ForestIds(b, i) == [c.id] + ForestIds(b, i + 1);
      assert ForestPages(b, i) == [] + ForestPages(b, i + 1);
    } else {
      WalkPassesOver(ChildrenJson(b), i, tail);
      assert ForestIds(b, i) == [] + ForestIds(b, i + 1);
      assert ForestPages(b, i) == [] + ForestPages(b, i + 1);
    }
  }
}

=== FILE: notion_data_parser.dfy ===
/**
 The row parser: `parse_database` turns the rows of a database query into flat
 records, one per row, dispatching on each property's `type` tag.

 Every `parse_dict[k] = v` the parser performs is modelled as a write `(k, v)`;
 `Writes` lists the writes of one property, `RowWrites` those of a whole row, and
 `Apply` performs them in order, so a later write to the same key wins, as in the
 dict. The methods follow the loops of the source and are proved to perform exactly
 these writes; the lemmas say what the writes mean for the record.
 */
module NotionDataParser {
  import opened Wrappers
  import opened Python

  /** The branches of the `match raw_type`, the last one being the fallback `case _`. */
  datatype Conversion =
    | TakeName        // select, created_by, last_edited_by
    | PassThrough     // email, url, checkbox, number, phone_number, created_time, last_edited_time
    | JoinNames       // multi_select, people
    | FirstPlainText  // title, rich_text
    | Formula         // formula
    | JoinIds         // relation
    | Rollup          // rollup
    | JoinFileUrls    // files
    | ExpandDate      // date
    | KeepEnvelope    // any other tag

  const KnownTags: set<string> := {
    "select", "created_by", "last_edited_by",
    "email", "url", "checkbox", "number", "phone_number", "created_time", "last_edited_time",
    "multi_select", "people", "title", "rich_text", "formula", "relation", "rollup", "files", "date"}

  function ConversionOf(tag: string): (c: Conversion)
    ensures c == KeepEnvelope <==> tag !in KnownTags
  {
    if tag in {"select", "created_by", "last_edited_by"} then TakeName
    else if tag in {"email", "url", "checkbox", "number", "phone_number", "created_time", "last_edited_time"} then PassThrough
    else if tag in {"multi_select", "people"} then JoinNames
    else if tag in {"title", "rich_text"} then FirstPlainText
    else if tag == "formula" then Formula
    else if tag == "relation" then JoinIds
    else if tag == "rollup" then Rollup
    else if tag == "files" then JoinFileUrls
    else if tag == "date" then ExpandDate
    else KeepEnvelope
  }

  /** The null check: an empty list or `None` is stored as `None` whatever the tag. */
  predicate IsNone(d: Json) {
    d.JNull? || (d.JArr? && |d.items| == 0)
  }

  /** An envelope whose `type` is a string naming one of its own members. */
  predicate HasPayload(v: Json) {
    HasString(v, "type") && Lookup(v.fields, StringAt(v, "type")).Some?
  }

  /** `raw_value["type"]`. */
  function TypeTag(v: Json): string
    requires HasPayload(v)
  {
    StringAt(v, "type")
  }

  /** `raw_value[raw_type]`. */
  function PayloadOf(v: Json): Json
    requires HasPayload(v)
  {
    Lookup(v.fields, TypeTag(v)).value
  }

  /** A rollup element whose own type names a non-empty list starting with a string `plain_text`. */
  predicate RollupElement(x: Json) {
    HasString(x, "type") && Lookup(x.fields, StringAt(x, "type")).Some? &&
    var texts := Lookup(x.fields, StringAt(x, "type")).value;
    texts.JArr? && |texts.items| > 0 && HasString(texts.items[0], "plain_text")
  }

  /** `data[data["type"]][0]["plain_text"]`. */
  function RollupText(x: Json): string
    requires RollupElement(x)
  {
    StringAt(Lookup(x.fields, StringAt(x, "type")).value.items[0], "plain_text")
  }

  /** A file element whose own type names an object with a string `url`. */
  predicate FileElement(x: Json) {
    HasString(x, "type") && Lookup(x.fields, StringAt(x, "type")).Some? &&
    HasString(Lookup(x.fields, StringAt(x, "type")).value, "url")
  }

  /** `data[data["type"]]["url"]`. */
  function FileUrl(x: Json): string
    requires FileElement(x)
  {
    StringAt(Lookup(x.fields, StringAt(x, "type")).value, "url")
  }

  /** The payload shapes each branch can convert without raising. */
  predicate Shaped(c: Conversion, d: Json) {
    match c
    case TakeName => d.JObj? && Lookup(d.fields, "name").Some?
    case PassThrough => true
    case JoinNames => d.JArr? && forall i :: 0 <= i < |d.items| ==> HasString(d.items[i], "name")
    case FirstPlainText => d.JArr? && |d.items| > 0 && d.items[0].JObj? && Lookup(d.items[0].fields, "plain_text").Some?
    case Formula => HasString(d, "type") && Lookup(d.fields, StringAt(d, "type")).Some?
    case JoinIds => d.JArr? && forall i :: 0 <= i < |d.items| ==> HasString(d.items[i], "id")
    case Rollup =>
      d.JObj? && Lookup(d.fields, "array").Some? && Lookup(d.fields, "array").value.JArr? &&
      var arr := Lookup(d.fields, "array").value.items;
      forall i :: 0 <= i < |arr| ==> RollupElement(arr[i])
    case JoinFileUrls => d.JArr? && forall i :: 0 <= i < |d.items| ==> FileElement(d.items[i])
    case ExpandDate => d.JObj? && DistinctKeys(d.fields)
    case KeepEnvelope => true
  }

  predicate WellFormedEnvelope(v: Json) {
    HasPayload(v) && (IsNone(PayloadOf(v)) || Shaped(ConversionOf(TypeTag(v)), PayloadOf(v)))
  }

  predicate WellFormedProperties(props: seq<(string, Json)>) {
    forall i :: 0 <= i < |props| ==> WellFormedEnvelope(props[i].1)
  }

  /** A row: a dict whose `properties` member is a dict of well-formed envelopes. */
  predicate WellFormedRow(row: Json) {
    row.JObj? && Lookup(row.fields, "properties").Some? && Lookup(row.fields, "properties").value.JObj? &&
    var props := Lookup(row.fields, "properties").value.fields;
    DistinctKeys(props) && WellFormedProperties(props)
  }

  predicate WellFormedTable(rows: seq<Json>) {
    forall i :: 0 <= i < |rows| ==> WellFormedRow(rows[i])
  }

  /** `table_raw["properties"].items()`. */
  function Properties(row: Json): seq<(string, Json)>
    requires WellFormedRow(row)
  {
    Lookup(row.fields, "properties").value.fields
  }

  /** The string member `field` of every element, in element order. */
  function Fields(items: seq<Json>, field: string): seq<string>
    requires forall i :: 0 <= i < |items| ==> HasString(items[i], field)
  {
    seq(|items|, i requires 0 <= i < |items| => StringAt(items[i], field))
  }

  function RollupTexts(items: seq<Json>): seq<string>
    requires forall i :: 0 <= i < |items| ==> RollupElement(items[i])
  {
    seq(|items|, i requires 0 <= i < |items| => RollupText(items[i]))
  }

  function FileUrls(items: seq<Json>): seq<string>
    requires forall i :: 0 <= i < |items| ==> FileElement(items[i])
  {
    seq(|items|, i requires 0 <= i < |items| => FileUrl(items[i]))
  }

  /** The rollup's `array`. */
  function RollupArray(d: Json): seq<Json>
    requires Shaped(Rollup, d)
  {
    Lookup(d.fields, "array").value.items
  }

  /** The value a property with a non-empty payload stores under its own name (all branches but `date`). */
  function Converted(v: Json): Json
    requires WellFormedEnvelope(v) && !IsNone(PayloadOf(v)) && ConversionOf(TypeTag(v)) != ExpandDate
  {
    var d := PayloadOf(v);
    match ConversionOf(TypeTag(v))
    case TakeName => Lookup(d.fields, "name").value
    case PassThrough => d
    case JoinNames => JStr(Join(Fields(d.items, "name"), ','))
    case FirstPlainText => Lookup(d.items[0].fields, "plain_text").value
    case Formula => Lookup(d.fields, StringAt(d, "type")).value
    case JoinIds => JStr(Join(Fields(d.items, "id"), ','))
    case Rollup => JStr(Join(RollupTexts(RollupArray(d)), ','))
    case JoinFileUrls => JStr(Join(FileUrls(d.items), ','))
    case KeepEnvelope => v
  }

  /** The writes of a date payload: `name_k := v` for each member `k: v`, in order. */
  function DateWrites(key: string, fields: seq<(string, Json)>): seq<(string, Json)> {
    seq(|fields|, i requires 0 <= i < |fields| => (key + "_" + fields[i].0, fields[i].1))
  }

  /** The writes one property makes into its row's record. */
  function Writes(key: string, v: Json): seq<(string, Json)>
    requires WellFormedEnvelope(v)
  {
    var d := PayloadOf(v);
    if IsNone(d) then [(key, JNull)]
    else if ConversionOf(TypeTag(v)) == ExpandDate then DateWrites(key, d.fields)
    else [(key, Converted(v))]
  }

  /** The writes of each property of a row, in dict order. */
  function Batches(props: seq<(string, Json)>): seq<seq<(string, Json)>>
    requires WellFormedProperties(props)
  {
    seq(|props|, i requires 0 <= i < |props| => Writes(props[i].0, props[i].1))
  }

  function Flatten(batches: seq<seq<(string, Json)>>): seq<(string, Json)> {
    if |batches| == 0 then []
    else Flatten(batches[..|batches| - 1]) + batches[|batches| - 1]
  }

  /** The writes of a whole row, property by property in dict order. */
  function RowWrites(props: seq<(string, Json)>): seq<(string, Json)>
    requires WellFormedProperties(props)
  {
    Flatten(Batches(props))
  }

  /** `record[k] = v` for each write in order. */
  function Apply(record: map<string, Json>, writes: seq<(string, Json)>): map<string, Json>
    decreases |writes|
  {
    if |writes| == 0 then record
    else
      var last := writes[|writes| - 1];
      Apply(record, writes[..|writes| - 1])[last.0 := last.1]
  }

  function WrittenKeys(writes: seq<(string, Json)>): set<string> {
    set i | 0 <= i < |writes| :: writes[i].0
  }

  /** The flat record of one row. */
  function RecordOf(row: Json): map<string, Json>
    requires WellFormedRow(row)
  {
    Apply(map[], RowWrites(Properties(row)))
  }

  /** The records of a table, one per row in row order. */
  function ParseTable(rows: seq<Json>): seq<map<string, Json>>
    requires WellFormedTable(rows)
  {
    seq(|rows|, i requires 0 <= i < |rows| => RecordOf(rows[i]))
  }

  /** `parse_database`, without the final DataFrame: one record per row, in row order. */
  method ParseDatabase(tableData: seq<Json>) returns (parseList: seq<map<string, Json>>)
    requires WellFormedTable(tableData)
    ensures |parseList| == |tableData|
    ensures forall i :: 0 <= i < |tableData| ==> parseList[i] == RecordOf(tableData[i])
    ensures parseList == ParseTable(tableData)
  {
    parseList := [];
    for n := 0 to |tableData|
      invariant |parseList| == n
      invariant forall i :: 0 <= i < n ==> parseList[i] == RecordOf(tableData[i])
    {
      var parseDict := ParseRow(Properties(tableData[n]));
      parseList := parseList + [parseDict];
    }
  }

  /** The inner loop of `parse_database`: one row's properties, in dict order, into a fresh dict. */
  method ParseRow(properties: seq<(string, Json)>) returns (parseDict: map<string, Json>)
    requires WellFormedProperties(properties)
    ensures parseDict == Apply(map[], RowWrites(properties))
  {
    parseDict := map[];
    for j := 0 to |properties|
      invariant parseDict == Apply(map[], RowWrites(properties[..j]))
    {
      var (rawKey, rawValue) := properties[j];
      parseDict := ParseProperty(parseDict, rawKey, rawValue);
      BatchesSnoc(properties, j);
      ApplyConcat(map[], RowWrites(properties[..j]), Writes(rawKey, rawValue));
    }
    assert properties[..|properties|] == properties;
  }

  /** The body of the inner loop: the null check, then the branch for the property's type tag. */
  method ParseProperty(parseDict: map<string, Json>, rawKey: string, rawValue: Json) returns (result: map<string, Json>)
    requires WellFormedEnvelope(rawValue)
    ensures result == Apply(parseDict, Writes(rawKey, rawValue))
  {
    var rawType := TypeTag(rawValue);
    var rawData := PayloadOf(rawValue);
    if rawData.JArr? {
      if |rawData.items| == 0 {
        return parseDict[rawKey := JNull];
      }
    } else {
      if rawData.JNull? {
        return parseDict[rawKey := JNull];
      }
    }
    if ConversionOf(rawType) != ExpandDate {
      ConvertedWrite(parseDict, rawKey, rawValue);
    }
    match ConversionOf(rawType) {
      case TakeName =>
        result := parseDict[rawKey := Lookup(rawData.fields, "name").value];
      case PassThrough =>
        result := parseDict[rawKey := rawData];
      case JoinNames =>
        var tempList := CollectField(rawData.items, "name");
        assert tempList == Fields(rawData.items, "name");
        result := parseDict[rawKey := JStr(Join(tempList, ','))];
      case FirstPlainText =>
        result := parseDict[rawKey := Lookup(rawData.items[0].fields, "plain_text").value];
      case Formula =>
        result := parseDict[rawKey := Lookup(rawData.fields, StringAt(rawData, "type")).value];
      case JoinIds =>
        var tempList := CollectField(rawData.items, "id");
        assert tempList == Fields(rawData.items, "id");
        result := parseDict[rawKey := JStr(Join(tempList, ','))];
      case Rollup =>
        var tempList := CollectRollupTexts(RollupArray(rawData));
        assert tempList == RollupTexts(RollupArray(rawData));
        result := parseDict[rawKey := JStr(Join(tempList, ','))];
      case JoinFileUrls =>
        var tempList := CollectFileUrls(rawData.items);
        assert tempList == FileUrls(rawData.items);
        result := parseDict[rawKey := JStr(Join(tempList, ','))];
      case ExpandDate =>
        result := ExpandDateFields(parseDict, rawKey, rawData.fields);
      case KeepEnvelope =>
        result := parseDict[rawKey := rawValue];
    }
  }

  /** The `date` branch: `parse_dict[f"{raw_key}_{k}"] = v` for each member of the payload. */
  method ExpandDateFields(parseDict: map<string, Json>, rawKey: string, fields: seq<(string, Json)>)
    returns (result: map<string, Json>)
    ensures result == Apply(parseDict, DateWrites(rawKey, fields))
  {
    result := parseDict;
    for t := 0 to |fields|
      invariant result == Apply(parseDict, DateWrites(rawKey, fields[..t]))
    {
      var (k, v) := fields[t];
      result := result[rawKey + "_" + k := v];
      assert DateWrites(rawKey, fields[..t + 1]) == DateWrites(rawKey, fields[..t]) + [(rawKey + "_" + k, v)];
    }
    assert fields[..|fields|] == fields;
  }

  /** Every branch but `date` makes one write, of the converted value. */
  lemma ConvertedWrite(record: map<string, Json>, key: string, v: Json)
    requires WellFormedEnvelope(v) && !IsNone(PayloadOf(v)) && ConversionOf(TypeTag(v)) != ExpandDate
    ensures Apply(record, Writes(key, v)) == record[key := Converted(v)]
  {
    assert [(key, Converted(v))][..0] == [];
  }

  /** `for data in raw_data: temp_list.append(data[field])`. */
  method CollectField(items: seq<Json>, field: string) returns (tempList: seq<string>)
    requires forall i :: 0 <= i < |items| ==> HasString(items[i], field)
    ensures |tempList| == |items|
    ensures forall i :: 0 <= i < |items| ==> tempList[i] == StringAt(items[i], field)
  {
    tempList := [];
    for n := 0 to |items|
      invariant |tempList| == n
      invariant forall i :: 0 <= i < n ==> tempList[i] == StringAt(items[i], field)
    {
      tempList := tempList + [StringAt(items[n], field)];
    }
  }

  /** The rollup loop: each element unwrapped by its own type, then its first `plain_text`. */
  method CollectRollupTexts(items: seq<Json>) returns (tempList: seq<string>)
    requires forall i :: 0 <= i < |items| ==> RollupElement(items[i])
    ensures |tempList| == |items|
    ensures forall i :: 0 <= i < |items| ==> tempList[i] == RollupText(items[i])
  {
    tempList := [];
    for n := 0 to |items|
      invariant |tempList| == n
      invariant forall i :: 0 <= i < n ==> tempList[i] == RollupText(items[i])
    {
      var data := items[n];
      var rollupType := StringAt(data, "type");
      var rollupData := Lookup(data.fields, rollupType).value;
      tempList := tempList + [StringAt(rollupData.items[0], "plain_text")];
    }
  }

  /** The files loop: each element's `[type].url`. */
  method CollectFileUrls(items: seq<Json>) returns (tempList: seq<string>)
    requires forall i :: 0 <= i < |items| ==> FileElement(items[i])
    ensures |tempList| == |items|
    ensures forall i :: 0 <= i < |items| ==> tempList[i] == FileUrl(items[i])
  {
    tempList := [];
    for n := 0 to |items|
      invariant |tempList| == n
      invariant forall i :: 0 <= i < n ==> tempList[i] == FileUrl(items[i])
    {
      var data := items[n];
      tempList := tempList + [StringAt(Lookup(data.fields, StringAt(data, "type")).value, "url")];
    }
  }

  // ---------------------------------------------------------------------------
  // What the writes mean for the record

  /** Performing two batches of writes is performing their concatenation. */
  lemma {:induction false} ApplyConcat(record: map<string, Json>, a: seq<(string, Json)>, b: seq<(string, Json)>)
    ensures Apply(record, a + b) == Apply(Apply(record, a), b)
    decreases |b|
  {
    if |b| > 0 {
      assert (a + b)[..|a + b| - 1] == a + b[..|b| - 1];
      ApplyConcat(record, a, b[..|b| - 1]);
    } else {
      assert a + b == a;
    }
  }

  /** The record's keys are the keys it had plus every key written. */
  lemma {:induction false} ApplyKeys(record: map<string, Json>, writes: seq<(string, Json)>)
    ensures Apply(record, writes).Keys == record.Keys + WrittenKeys(writes)
    decreases |writes|
  {
    if |writes| > 0 {
      var front := writes[..|writes| - 1];
      ApplyKeys(record, front);
      assert WrittenKeys(writes) == WrittenKeys(front) + {writes[|writes| - 1].0} by {
        forall k | k in WrittenKeys(writes) ensures k in WrittenKeys(front) + {writes[|writes| - 1].0} {
          var i :| 0 <= i < |writes| && writes[i].0 == k;
          if i < |writes| - 1 { assert front[i] == writes[i]; }
        }
        forall k | k in WrittenKeys(front) ensures k in WrittenKeys(writes) {
          var i :| 0 <= i < |front| && front[i].0 == k;
          assert writes[i] == front[i];
        }
      }
    }
  }

  /** A key no write touches keeps its value. */
  lemma {:induction false} ApplyUntouched(record: map<string, Json>, writes: seq<(string, Json)>, k: string)
    requires k !in WrittenKeys(writes)
    ensures k in Apply(record, writes) <==> k in record
    ensures k in record ==> Apply(record, writes)[k] == record[k]
    decreases |writes|
  {
    if |writes| > 0 {
      var front := writes[..|writes| - 1];
      assert k != writes[|writes| - 1].0;
      assert k !in WrittenKeys(front) by {
        forall i | 0 <= i < |front| ensures front[i].0 != k {
          assert front[i] == writes[i];
        }
      }
      ApplyUntouched(record, front, k);
    }
  }

  /** A key holds the value of the last write to it. */
  lemma {:induction false} ApplyLastWrite(record: map<string, Json>, writes: seq<(string, Json)>, j: nat)
    requires j < |writes|
    requires forall i :: j < i < |writes| ==> writes[i].0 != writes[j].0
    ensures writes[j].0 in Apply(record, writes)
    ensures Apply(record, writes)[writes[j].0] == writes[j].1
    decreases |writes|
  {
    if j < |writes| - 1 {
      var front := writes[..|writes| - 1];
      ApplyLastWrite(record, front, j);
    }
  }

  /** One more property adds its own batch at the end. */
  lemma BatchesSnoc(props: seq<(string, Json)>, j: nat)
    requires WellFormedProperties(props)
    requires j < |props|
    ensures Batches(props[..j + 1]) == Batches(props[..j]) + [Writes(props[j].0, props[j].1)]
  {
  }

  /** Flattening two runs of batches flattens each. */
  lemma {:induction false} FlattenConcat(a: seq<seq<(string, Json)>>, b: seq<seq<(string, Json)>>)
    ensures Flatten(a + b) == Flatten(a) + Flatten(b)
    decreases |b|
  {
    if |b| == 0 {
      assert a + b == a;
    } else {
      assert (a + b)[..|a + b| - 1] == a + b[..|b| - 1];
      FlattenConcat(a, b[..|b| - 1]);
    }
  }

  /** A key that only batch `j` writes last holds that batch's value. */
  lemma BatchInFlatten(batches: seq<seq<(string, Json)>>, j: nat, k: string)
    requires j < |batches|
    requires k in WrittenKeys(batches[j])
    requires k !in WrittenKeys(Flatten(batches[j + 1..]))
    ensures k in Apply(map[], batches[j])
    ensures k in Apply(map[], Flatten(batches))
    ensures Apply(map[], Flatten(batches))[k] == Apply(map[], batches[j])[k]
  {
    var w := batches[j];
    var a := Flatten(batches[..j]);
    var b := Flatten(batches[j + 1..]);
    assert batches == batches[..j] + [w] + batches[j + 1..];
    assert Flatten([w]) == w by {
      assert [w][..0] == [];
    }
    FlattenConcat(batches[..j], [w]);
    FlattenConcat(batches[..j] + [w], batches[j + 1..]);
    var before := Apply(map[], a);
    ApplyConcat(map[], a, w);
    ApplyConcat(map[], a + w, b);
    ApplyUntouched(Apply(before, w), b, k);
    var i :| 0 <= i < |w| && w[i].0 == k;
    var last := LastIndexOf(w, k, i);
    ApplyLastWrite(before, w, last);
    ApplyLastWrite(map[], w, last);
  }

  /**
   In a row's record, a key written by property `j` and by no later property holds
   exactly the value that property alone would store.
   */
  lemma PropertyInRecord(props: seq<(string, Json)>, j: nat, k: string)
    requires WellFormedProperties(props)
    requires j < |props|
    requires k in WrittenKeys(Writes(props[j].0, props[j].1))
    requires k !in WrittenKeys(RowWrites(props[j + 1..]))
    ensures k in Apply(map[], Writes(props[j].0, props[j].1))
    ensures k in Apply(map[], RowWrites(props))
    ensures Apply(map[], RowWrites(props))[k] == Apply(map[], Writes(props[j].0, props[j].1))[k]
  {
    assert Batches(props)[j + 1..] == Batches(props[j + 1..]);
    BatchInFlatten(Batches(props), j, k);
  }

  /** The last index of a write to `k`, at or after a known one. */
  function LastIndexOf(writes: seq<(string, Json)>, k: string, from: nat): (i: nat)
    requires from < |writes| && writes[from].0 == k
    ensures from <= i < |writes| && writes[i].0 == k
    ensures forall n :: i < n < |writes| ==> writes[n].0 != k
    decreases |writes| - from
  {
    if exists n :: from < n < |writes| && writes[n].0 == k then
      var n :| from < n < |writes| && writes[n].0 == k;
      LastIndexOf(writes, k, n)
    else from
  }

  /** An empty list or `None` payload stores `None` under the property's name, whatever the tag, date included. */
  lemma NoneForEmptyPayload(record: map<string, Json>, key: string, v: Json)
    requires WellFormedEnvelope(v) && IsNone(PayloadOf(v))
    ensures Apply(record, Writes(key, v)) == record[key := JNull]
  {
  }

  /**
   `select`/`created_by`/`last_edited_by` store the payload's `name`; the seven scalar tags
   store the payload unchanged; `title`/`rich_text` the first element's `plain_text`;
   `formula` the member named by the payload's own `type`; an unknown tag the whole envelope.
   */
  lemma SingleValueConversions(record: map<string, Json>, key: string, v: Json)
    requires WellFormedEnvelope(v) && !IsNone(PayloadOf(v))
    ensures var d := PayloadOf(v); var r := Apply(record, Writes(key, v));
      && (ConversionOf(TypeTag(v)) == TakeName ==> r == record[key := Lookup(d.fields, "name").value])
      && (ConversionOf(TypeTag(v)) == PassThrough ==> r == record[key := d])
      && (ConversionOf(TypeTag(v)) == FirstPlainText ==> r == record[key := Lookup(d.items[0].fields, "plain_text").value])
      && (ConversionOf(TypeTag(v)) == Formula ==> r == record[key := Lookup(d.fields, StringAt(d, "type")).value])
      && (TypeTag(v) !in KnownTags ==> r == record[key := v])
  {
  }

  /**
   The joined conversions store one comma-joined string whose pieces are, in element
   order, the elements' names (`multi_select`, `people`), ids (`relation`), first
   `plain_text` under each element's own type (`rollup`) or `[type].url` (`files`):
   splitting it at commas gives them back when none holds a comma.
   */
  lemma {:induction false} JoinedConversions(key: string, v: Json)
    requires WellFormedEnvelope(v) && !IsNone(PayloadOf(v))
    ensures var d := PayloadOf(v); var c := ConversionOf(TypeTag(v));
      && (c == JoinNames && NoComma(Fields(d.items, "name")) ==>
            Writes(key, v) == [(key, Converted(v))] && Split(Converted(v).s, ',') == Fields(d.items, "name"))
      && (c == JoinIds && NoComma(Fields(d.items, "id")) ==>
            Writes(key, v) == [(key, Converted(v))] && Split(Converted(v).s, ',') == Fields(d.items, "id"))
      && (c == Rollup && |RollupArray(d)| > 0 && NoComma(RollupTexts(RollupArray(d))) ==>
            Writes(key, v) == [(key, Converted(v))] && Split(Converted(v).s, ',') == RollupTexts(RollupArray(d)))
      && (c == JoinFileUrls && NoComma(FileUrls(d.items)) ==>
            Writes(key, v) == [(key, Converted(v))] && Split(Converted(v).s, ',') == FileUrls(d.items))
  {
    var d := PayloadOf(v);
    match ConversionOf(TypeTag(v))
    case JoinNames => if NoComma(Fields(d.items, "name")) { SplitJoin(Fields(d.items, "name"), ','); }
    case JoinIds => if NoComma(Fields(d.items, "id")) { SplitJoin(Fields(d.items, "id"), ','); }
    case Rollup =>
      if |RollupArray(d)| > 0 && NoComma(RollupTexts(RollupArray(d))) { SplitJoin(RollupTexts(RollupArray(d)), ','); }
    case JoinFileUrls => if NoComma(FileUrls(d.items)) { SplitJoin(FileUrls(d.items), ','); }
    case _ =>
  }

  predicate NoComma(parts: seq<string>) {
    forall i :: 0 <= i < |parts| ==> ',' !in parts[i]
  }

  /**
   A `date` payload writes `name_k` for every member `k`, with that member's value,
   and leaves the key `name` itself untouched.
   */
  lemma {:induction false} DateExpansion(record: map<string, Json>, key: string, v: Json)
    requires WellFormedEnvelope(v) && !IsNone(PayloadOf(v)) && TypeTag(v) == "date"
    ensures var fields := PayloadOf(v).fields; var r := Apply(record, Writes(key, v));
      && r.Keys == record.Keys + (set i | 0 <= i < |fields| :: key + "_" + fields[i].0)
      && (forall i :: 0 <= i < |fields| ==> r[key + "_" + fields[i].0] == fields[i].1)
      && (key in r <==> key in record)
      && (key in record ==> r[key] == record[key])
  {
    var fields := PayloadOf(v).fields;
    assert DistinctKeys(fields);
    var w := DateWrites(key, fields);
    assert Writes(key, v) == w;
    ApplyKeys(record, w);
    DateWrittenKeys(key, fields);
    forall i | 0 <= i < |fields|
      ensures Apply(record, w)[key + "_" + fields[i].0] == fields[i].1
    {
      DateWriteIsLast(key, fields, i);
      ApplyLastWrite(record, w, i);
    }
    ApplyUntouched(record, w, key);
  }

  /** The keys a date payload writes are its members' names after the property's name and `_`; never the name itself. */
  lemma DateWrittenKeys(key: string, fields: seq<(string, Json)>)
    ensures WrittenKeys(DateWrites(key, fields)) == (set i | 0 <= i < |fields| :: key + "_" + fields[i].0)
    ensures key !in WrittenKeys(DateWrites(key, fields))
  {
    var w := DateWrites(key, fields);
    forall k | k in WrittenKeys(w) ensures k in (set i | 0 <= i < |fields| :: key + "_" + fields[i].0) {
      var i :| 0 <= i < |w| && w[i].0 == k;
    }
    forall i | 0 <= i < |fields| ensures key + "_" + fields[i].0 in WrittenKeys(w) {
      assert w[i].0 == key + "_" + fields[i].0;
    }
    forall i | 0 <= i < |w| ensures w[i].0 != key {
      assert |w[i].0| > |key|;
    }
  }

  /** Distinct members give distinct keys, so no later write of a date payload overwrites an earlier one. */
  lemma DateWriteIsLast(key: string, fields: seq<(string, Json)>, i: nat)
    requires DistinctKeys(fields) && i < |fields|
    ensures forall n :: i < n < |DateWrites(key, fields)| ==> DateWrites(key, fields)[n].0 != DateWrites(key, fields)[i].0
  {
    var w := DateWrites(key, fields);
    forall n | i < n < |w| ensures w[n].0 != w[i].0 {
      PrefixInjective(key + "_", fields[n].0, fields[i].0);
    }
  }

  lemma PrefixInjective(p: string, a: string, b: string)
    ensures p + a == p + b ==> a == b
  {
    assert (p + a)[|p|..] == a;
    assert (p + b)[|p|..] == b;
  }

  // ---------------------------------------------------------------------------
  // Worked examples

  function Envelope(tag: string, payload: Json): Json {
    JObj([("type", JStr(tag)), (tag, payload)])
  }

  /** `[{name: "A"}, {name: "B"}]` under `multi_select` gives `"A,B"`. */
  lemma MultiSelectExample(key: string)
    ensures var v := Envelope("multi_select", JArr([JObj([("name", JStr("A"))]), JObj([("name", JStr("B"))])]));
      WellFormedEnvelope(v) && Apply(map[], Writes(key, v)) == map[key := JStr("A,B")]
  {
    var items := [JObj([("name", JStr("A"))]), JObj([("name", JStr("B"))])];
    var v := Envelope("multi_select", JArr(items));
    assert Lookup(v.fields, "type") == Some(JStr("multi_select"));
    assert Lookup(v.fields, "multi_select") == Some(JArr(items));
    assert ConversionOf("multi_select") == JoinNames;
    assert StringAt(items[0], "name") == "A";
    assert StringAt(items[1], "name") == "B";
    assert Fields(items, "name") == ["A", "B"];
    assert Join(["A", "B"], ',') == "A" + [','] + Join(["B"], ',');
    assert Converted(v) == JStr("A,B");
    assert Writes(key, v) == [(key, JStr("A,B"))];
    assert [(key, JStr("A,B"))][..0] == [];
  }

  /** `{start: "2024-01-01", end: null}` under `date` named `Due` gives `Due_start` and `Due_end`. */
  lemma DateExample()
    ensures var v := Envelope("date", JObj([("start", JStr("2024-01-01")), ("end", JNull)]));
      WellFormedEnvelope(v) && Apply(map[], Writes("Due", v)) == map["Due_start" := JStr("2024-01-01"), "Due_end" := JNull]
  {
    var fields := [("start", JStr("2024-01-01")), ("end", JNull)];
    var v := Envelope("date", JObj(fields));
    assert Lookup(v.fields, "type") == Some(JStr("date"));
    assert Lookup(v.fields, "date") == Some(JObj(fields));
    assert ConversionOf("date") == ExpandDate;
    assert "Due" + "_" + "start" == "Due_start";
    assert "Due" + "_" + "end" == "Due_end";
    var w := [("Due_start", JStr("2024-01-01")), ("Due_end", JNull)];
    assert Writes("Due", v) == DateWrites("Due", fields) == w;
    assert w[..1][..0] == [] && w[..1] == [w[0]];
  }

  /** A `title` with an empty rich-text list gives `None` rather than an index error. */
  lemma EmptyTitleExample(key: string)
    ensures var v := Envelope("title", JArr([]));
      WellFormedEnvelope(v) && Apply(map[], Writes(key, v)) == map[key := JNull]
  {
    var v := Envelope("title", JArr([]));
    assert PayloadOf(v) == JArr([]);
  }
}

=== FILE: python.dfy ===
/**
 The small part of Python's data model the extractor relies on: JSON values as
 `json.loads` builds them, subscripting a dict by a string key, the exceptions that
 can escape, and `str.split` / `str.join` on a one-character separator.
 */
module Python {
  import opened Wrappers

  /** A numeric literal. Numbers are only copied by the extractor, never computed on. */
  datatype Number = Number(literal: string)

  /**
   A decoded JSON value. An object keeps its members in the order the service sent
   them, as a Python dict keeps insertion order.
   */
  datatype Json =
    | JNull
    | JBool(b: bool)
    | JNum(n: Number)
    | JStr(s: string)
    | JArr(items: seq<Json>)
    | JObj(fields: seq<(string, Json)>)

  /** A dict never holds a key twice. */
  predicate DistinctKeys(fields: seq<(string, Json)>) {
    forall i, j :: 0 <= i < j < |fields| ==> fields[i].0 != fields[j].0
  }

  /** `d.get(key)` on a dict given by its members. */
  function Lookup(fields: seq<(string, Json)>, key: string): (r: Option<Json>)
    ensures r.Some? <==> exists i :: 0 <= i < |fields| && fields[i].0 == key
    ensures r.Some? ==> exists i :: 0 <= i < |fields| && fields[i] == (key, r.value)
  {
    if |fields| == 0 then None
    else if fields[0].0 == key then Some(fields[0].1)
    else Lookup(fields[1..], key)
  }

  /** True when `j` is a dict whose member `key` is a string. */
  predicate HasString(j: Json, key: string) {
    j.JObj? && Lookup(j.fields, key).Some? && Lookup(j.fields, key).value.JStr?
  }

  /** The string member `key` of a dict. */
  function StringAt(j: Json, key: string): string
    requires HasString(j, key)
  {
    Lookup(j.fields, key).value.s
  }

  /** An exception escaping from the extractor. */
  datatype Exc =
    | Raised(args: seq<string>)   // `raise Exception(*args)`
    | ConnectionError              // the transport got no answer from the service
    | KeyError(key: string)        // a dict lacks the key
    | IndexError                   // a list or tuple index out of range
    | TypeError                    // subscripting something that is not a dict, or `None`
    | ParseFailure                 // a row outside the shapes the row parser accepts

  /**
   `j[key]`, where `j` must be a dict: the value of the member named `key`, a key error
   when there is none, a type error on anything but a dict.
   */
  function Subscript(j: Json, key: string): (r: Result<Json, Exc>)
    ensures r.Ok? <==> j.JObj? && exists i :: 0 <= i < |j.fields| && j.fields[i].0 == key
    ensures r.Ok? ==> exists i :: 0 <= i < |j.fields| && j.fields[i] == (key, r.value)
    ensures r.Ok? && DistinctKeys(j.fields) ==>
      forall i :: 0 <= i < |j.fields| && j.fields[i].0 == key ==> j.fields[i].1 == r.value
    ensures j.JObj? && r.Err? ==> r.error == KeyError(key)
    ensures !j.JObj? ==> r == Err(TypeError)
  {
    match j
    case JObj(fields) =>
      (match Lookup(fields, key)
       case Some(v) => Ok(v)
       case None => Err(KeyError(key)))
    case _ => Err(TypeError)
  }

  /** `s.split(sep)`: the pieces between separators, always at least one. */
  function Split(s: string, sep: char): (parts: seq<string>)
    ensures |parts| >= 1
  {
    if |s| == 0 then [""]
    else
      var rest := Split(s[1..], sep);
      if s[0] == sep then [""] + rest else [[s[0]] + rest[0]] + rest[1..]
  }

  /** `sep.join(parts)`. */
  function Join(parts: seq<string>, sep: char): string {
    if |parts| == 0 then ""
    else if |parts| == 1 then parts[0]
    else parts[0] + [sep] + Join(parts[1..], sep)
  }

  lemma {:induction false} SplitWithoutSeparator(w: string, sep: char)
    requires sep !in w
    ensures Split(w, sep) == [w]
  {
    if |w| > 0 {
      SplitWithoutSeparator(w[1..], sep);
      assert [w[0]] + w[1..] == w;
    }
  }

  /** Splitting at one separator splits the two sides independently. */
  lemma {:induction false} SplitConcat(a: string, b: string, sep: char)
    ensures Split(a + [sep] + b, sep) == Split(a, sep) + Split(b, sep)
  {
    if |a| == 0 {
      assert a + [sep] + b == [sep] + b;
      assert ([sep] + b)[1..] == b;
    } else {
      assert (a + [sep] + b)[1..] == a[1..] + [sep] + b;
      SplitConcat(a[1..], b, sep);
    }
  }

  /** Joining pieces that hold no separator can be undone by splitting. */
  lemma {:induction false} SplitJoin(parts: seq<string>, sep: char)
    requires |parts| > 0
    requires forall i :: 0 <= i < |parts| ==> sep !in parts[i]
    ensures Split(Join(parts, sep), sep) == parts
  {
    SplitWithoutSeparator(parts[0], sep);
    if |parts| > 1 {
      SplitJoin(parts[1..], sep);
      SplitConcat(parts[0], Join(parts[1..], sep), sep);
      assert [parts[0]] + parts[1..] == parts;
    }
  }
}

=== FILE: wrappers.dfy ===
/** Optional values and results with an error, used for Python's `None` and raised exceptions. */
module Wrappers {

  datatype Option<+T> = None | Some(value: T)

  datatype Result<+T, +E> = Ok(value: T) | Err(error: E)
}
